=== FILE: README.md ===
# A verified model of the DnsClient DNS codec

`DnsClient.java` is a small command-line DNS client for RFC 1035. This
project models its message handling as pure Dafny functions over octet
sequences with explicit cursors, and proves the properties below about
the model.

- Building the query (`getRequestHeader`, `getDomainLength`, `getQuestion`,
  `constructRequest`). The random identifier is a parameter, and so are the
  domain name and the query type.
- Decoding a name with message compression (`decodeDomainName`, section
  4.1.4 of RFC 1035). The model also returns the resume cursor, which the
  source computes but discards.
- Parsing the reply (`parseResponse`). It reads six header fields, rejects
  RCODE 1 to 5, and walks ANCOUNT resource records, interpreting the RDATA
  of A, CNAME, NS and MX records. The printing becomes an `Outcome` value.
- The attempt loop of `main`, as a state machine over what each attempt
  brings from the network.

Modules, one per file, in dependency order:

| file | module | contents |
|---|---|---|
| `wire.dfy` | `Wire` | octets, big-endian 16- and 32-bit fields, `Option` and `Result` |
| `names.dfy` | `Names` | Java's `split`, the label encoding, the decoding loop |
| `name_properties.dfy` | `NameProperties` | round trips of names, pointer behaviour, pointer loops |
| `header.dfy` | `Headers` | the flags word and the 12-octet header |
| `query.dfy` | `Query` | the query message |
| `response.dfy` | `Response` | RCODE, resource records, RDATA, the answer walk, the whole reply |
| `client.dfy` | `Client` | the retry loop and a full run after the query is built |

Java semantics are written out explicitly:

- `getShort() & 0xFFFF` is an unsigned 16-bit read, and `getInt()` is a
  two's-complement 32-bit read.
- `(byte)` casts reduce modulo 256. Characters are Unicode scalar values
  in Dafny and UTF-16 code units in Java, so the two agree on characters
  of the Basic Multilingual Plane.
- `(char)` of a signed byte sign-extends, so octets 0x80 to 0xFF become
  U+FF80 to U+FFFF.
- `split("\\.")` returns the whole string when it has no dot, and otherwise
  drops trailing empty pieces.
- A bit mask on a non-negative value is a remainder, and a right shift is a
  division.

Every exception the source can raise while parsing is an error value:

- `Underflow` for a `BufferUnderflowException` from a field or RDATA read
  past the end;
- `BadPosition` for the `IllegalArgumentException` of `buffer.position`;
- `RdataIndex` for the `ArrayIndexOutOfBoundsException` of an MX record
  shorter than two octets;
- `Truncated` for a name that runs past the end of the message.

A cycle of compression pointers keeps the source's decoding loop from
ever ending normally. A cycle of pointers alone spins forever. A cycle
that passes a label, such as the octets `1, 'a', 0xC0, 0x00` at offset 0,
appends `.a` to the name on every round until the memory runs out; the
resulting `OutOfMemoryError` is not an `Exception`, so the catch-all
handler of `main` (DnsClient.java:73) does not catch it and the program
dies. In the model, decoding follows at most `|data|` pointers and reports
`PointerLoop` when it runs out. `NameProperties.DivergenceIsReal` proves
that this happens exactly when decoding runs out of hops (`PointerLoop`)
with every budget, that is, when the source's loop follows pointers
forever: it spins on a cycle of pointers alone, or grows the name until
`OutOfMemoryError`.

The owner name of a resource record is read as one 16-bit field, as the
source does. It is in practice a compression pointer, and it is never
decoded. QDCOUNT and NSCOUNT are read and ignored. Of the additional
section, only ARCOUNT is reported.

Behaviour of the code worth knowing, where RFC 1035 or a reader might
expect otherwise:

- **Name length.** `getDomainLength` does not count the terminating zero
  octet. The request for `example.com` is therefore 29 octets
  (`Query.ExampleComLength`). The zero octet is still written, and the
  buffer of `getDomainLength() + 5` octets is exactly filled
  (`Query.Question`).
- **Pointer past the end.** A pointer whose target lies past the end of
  the message ends the decoding loop quietly, with the name decoded so far.
  It is not an error.
- **Order of the checks.** The answer offset is checked against the reply
  length (`buffer.position`) before RCODE is examined. A short reply with
  an error RCODE therefore fails with `BadPosition` and is not rejected.
- **Encoding.** Labels longer than 63 octets, non-ASCII names and empty
  names are not refused. They are encoded with the `(byte)` casts.
- **Retries.** Every exception during send or receive is retried, not only
  a timeout.

## Model

| member | source | states |
|---|---|---|
| `Wire.U16AtEncoding` | DnsClient.java:98-103 | a 16-bit field read as `getShort() & 0xFFFF` re-encodes to exactly the two octets it was read from (big-endian) |
| `Wire.U16RoundTrip` | DnsClient.java:98-103 | reading the two-octet encoding of any 16-bit value gives the value back |
| `Wire.I32AtEncoding` | DnsClient.java:150 | the TTL read as a two's-complement `getInt()` re-encodes to its four octets |
| `Wire.I32RoundTrip` | DnsClient.java:150 | reading the four-octet two's-complement encoding of any signed 32-bit value gives the value back |
| `Names.CharToByte` | DnsClient.java:259 | the `(byte)` cast of a label character keeps every ASCII code unchanged |
| `Names.ByteToChar` | DnsClient.java:314 | the `(char)` of a signed octet casts back to the same octet, and is ASCII exactly when the octet is below 0x80 |
| `Names.SignBit` | DnsClient.java:314 | an octet is below 0x80 exactly when its sign bit is clear, which is when `(char)` does not sign-extend it |
| `Names.AsciiRoundTrip` | DnsClient.java:313-315 | ASCII text written with `(byte)` casts and read back with `(char)` casts is unchanged |
| `Names.JoinSplit` | DnsClient.java:255 | joining the pieces of a split with dots gives back the original string, for every string |
| `Names.SplitJoin` | DnsClient.java:255 | splitting dot-free pieces joined with dots gives back exactly those pieces |
| `Names.JavaSplit` | DnsClient.java:255 | Java's `split` gives a dot-free string back whole; otherwise it gives the pieces between the dots, dropping exactly the empty ones at the end |
| `Names.DropTrailingEmpty` | DnsClient.java:255 | Java's `split` keeps a prefix of the pieces that does not end in an empty piece, and drops only empty ones |
| `Names.ValidDomainPieces` | DnsClient.java:255 | for a name of valid labels, Java's `split` gives exactly its pieces, and they join back to the name |
| `Names.JoinValid` | DnsClient.java:255-261 | valid labels joined with dots form a valid name |
| `Names.EncodeLabels` | DnsClient.java:256-261 | the labels on the wire take exactly the octets `getDomainLength` sums |
| `Names.EncodeName` | DnsClient.java:255-264 | the encoded name is one octet longer than `getDomainLength`, and that last octet is the zero terminator |
| `Names.IsPointerMask` | DnsClient.java:305 | a length octet starts a pointer exactly when `(len & 0xC0) == 0xC0` |
| `Names.PointerTarget` | DnsClient.java:306 | a pointer target always lies below 0x4000 |
| `Names.PointerTargetMask` | DnsClient.java:306 | the target is the low six bits of the length octet, shifted left by 8 and or-ed with the next octet |
| `Names.PointerEncoding` | DnsClient.java:305-306 | the two pointer octets are the big-endian encoding of 0xC000 plus the target |
| `Names.DecodeFrom` | DnsClient.java:299-322 | once a pointer has been followed, decoding resumes at the latched position; otherwise it resumes no earlier than where it started |
| `Names.DecodeDomainName` | DnsClient.java:294-324 | a decoded name's resume cursor never lies before the offset it started from |
| `NameProperties.DecodeLabels` | DnsClient.java:299-317 | a run of well-formed labels ending in a zero octet decodes to the name extended by those labels, with the cursor just past the zero octet |
| `NameProperties.ExtendAllJoin` | DnsClient.java:312 | appending labels with a dot before each one, to a non-empty name, is the name, a dot, and the labels joined with dots |
| `NameProperties.ExtendAllFromEmpty` | DnsClient.java:312 | starting from the empty name, the labels come out joined with dots and with no leading dot |
| `NameProperties.DomainLabels` | DnsClient.java:255-264 | a valid name is encoded as the encodings of its valid labels followed by a zero octet, and those labels rebuild the name |
| `NameProperties.NameAt` | DnsClient.java:294-324 | wherever a valid name's encoding sits in a message, decoding there gives the name back, and the cursor lands just past the zero octet |
| `NameProperties.NameRoundTrip` | DnsClient.java:294-324 | decoding right after any prefix, at the start of an encoded valid name followed by anything, gives the name, with the cursor `getDomainLength() + 1` octets further on |
| `NameProperties.JumpIndependence` | DnsClient.java:305-310 | whether decoding fails, and with which error, does not depend on the latched position or on the text decoded so far; the names agree when the texts do |
| `NameProperties.HopMonotone` | DnsClient.java:305-310 | a decoding that does not run out of pointer hops gives the same result with any larger hop budget |
| `NameProperties.LoopsIffVisit` | DnsClient.java:305-310 | decoding runs out of hops exactly when the pointer chain reaches a pointer at every hop |
| `NameProperties.CycleForever` | DnsClient.java:305-310 | a pointer chain that returns to where it started goes on for ever |
| `NameProperties.BudgetSuffices` | DnsClient.java:299-311 | a hop budget as large as the message gives the same result as any larger budget |
| `NameProperties.DivergenceIsReal` | DnsClient.java:299-311 | `PointerLoop` is reported exactly when decoding runs out of hops (`PointerLoop`) with every budget, that is, when the source's loop follows pointers forever: it spins on a cycle of pointers alone, or grows the name until `OutOfMemoryError` |
| `NameProperties.SelfPointerLoops` | DnsClient.java:305-310 | a pointer to itself never terminates |
| `NameProperties.PointerResolves` | DnsClient.java:305-321 | decoding at a pointer gives the name decoded at its target, or the same error, and resumes two octets after the pointer |
| `NameProperties.PointerAt` | DnsClient.java:305-306 | two octets encoding 0xC000 plus a target below 0x4000 form a pointer to that target |
| `NameProperties.PointerToName` | DnsClient.java:305-321 | a pointer to a valid name's encoding decodes to that name, and resumes just after the pointer |
| `NameProperties.CompressedRepeat` | DnsClient.java:305-321 | a name written once and then repeated as a pointer to its first copy decodes to the name at the pointer, and resumes after it |
| `NameProperties.GlueFrom` | DnsClient.java:299-317 | the text already decoded only stands in front of what the loop decodes from there: the same name behind it, after a dot when both parts are non-empty, the same resume position, or the same error |
| `NameProperties.NameGlue` | DnsClient.java:299-321 | decoding with some text already built succeeds exactly when decoding from empty text does, giving that text, a dot and the name, with the same resume position; otherwise it fails with the same error |
| `NameProperties.LabelsThen` | DnsClient.java:311-317 | labels laid out one after another are read in order whatever follows them, and decoding goes on after the last of them with the labels added to the name |
| `NameProperties.LabelsThenPointer` | DnsClient.java:299-321 | a name written as labels ending in a pointer, the usual compressed form of section 4.1.4 of RFC 1035, decodes to the labels, a dot and the name at the pointer's target, resuming two octets after the pointer; or fails with the target's error |
| `NameProperties.LabelsThenName` | DnsClient.java:299-321 | labels followed by a pointer to an encoded valid name decode to the labels, a dot and that name, resuming two octets after the pointer |
| `Headers.EncodeFlags` | DnsClient.java:226-234 | the flags word carries QR, OPCODE, AA, TC and RD in its high octet, and RA, Z and RCODE in its low octet |
| `Headers.FlagsDecodeEncode` | DnsClient.java:99 | every 16-bit flags word is the encoding of the fields read from it, so no bit is lost |
| `Headers.FlagsRoundTrip` | DnsClient.java:226-234 | reading back encoded flags gives every field back |
| `Headers.HighOctetRoundTrip` | DnsClient.java:231-232 | QR, OPCODE, AA, TC and RD are recovered from the high octet alone |
| `Headers.LowOctetRoundTrip` | DnsClient.java:233-234 | RA, Z and RCODE are recovered from the low octet alone |
| `Headers.EncodeHeader` | DnsClient.java:217-249 | a header takes exactly 12 octets |
| `Headers.HeaderDecodeEncode` | DnsClient.java:98-103 | the six fields read from a message's first 12 octets encode back to exactly those octets |
| `Headers.HeaderPrefix` | DnsClient.java:98-103 | the header read from a message depends only on its first 12 octets |
| `Headers.HeaderRoundTrip` | DnsClient.java:98-103 | an encoded header, followed by anything, reads back as that header |
| `Query.RequestHeader` | DnsClient.java:217-249 | the request header is 12 octets and reads back as the identifier, RD set, every other flag clear, QDCOUNT 1 and the other counts 0 |
| `Query.Question` | DnsClient.java:251-281 | the question takes `getDomainLength() + 5` octets, with QTYPE and then QCLASS IN in its last four |
| `Query.ConstructRequest` | DnsClient.java:79-92 | the request is `12 + getDomainLength() + 5` octets, reads back as the query header, and carries QTYPE and QCLASS at the end of the question |
| `Query.RequestRoundTrip` | DnsClient.java:79-92 | decoding a request at offset 12 gives back the queried name, with the cursor on QTYPE |
| `Query.RequestLayout` | DnsClient.java:79-92 | the request is the header, then the encoded name, then a four-octet trailer |
| `Query.LabelsLengthJoin` | DnsClient.java:283-291 | the length octets take the place of the dots, plus one in front |
| `Query.RequestLength` | DnsClient.java:283-291 | for a valid name, `getDomainLength()` is the name's length plus one, and the request is 18 octets longer than the name |
| `Query.ExampleComLength` | DnsClient.java:79-92 | `example.com` gives a name length of 12 and a request of 29 octets |
| `Response.CodeOf` | DnsClient.java:113-134 | each of the five server errors is reported by an RCODE between 1 and 5 |
| `Response.ServerErrorOf` | DnsClient.java:113-134 | RCODE yields a server error exactly when it is 1 to 5, and that error's code is the RCODE |
| `Response.ServerErrorRoundTrip` | DnsClient.java:113-134 | the five errors have distinct RCODEs |
| `Response.Rcode` | DnsClient.java:113 | `flags & 0xF` is the RCODE field of the flags word |
| `Response.Authoritative` | DnsClient.java:137 | `(flags >> 10) & 1` is the AA field of the flags word |
| `Response.EncodeRecord` | DnsClient.java:147-153 | a record takes 12 octets plus its RDATA |
| `Response.ReadRecord` | DnsClient.java:147-153 | a read fails only with an underflow, when the fixed fields or the RDATA run past the end; a record that is read fits in the reply |
| `Response.ReadRecordEncoding` | DnsClient.java:147-153 | a record that is read re-encodes to exactly the octets it was read from |
| `Response.ReadEncodedRecord` | DnsClient.java:147-153 | wherever an encoded record sits, reading there gives it back |
| `Response.Interpret` | DnsClient.java:155-174 | A with four octets is an address, and a wrong-length A or any unknown type is raw RDATA; only CNAME, NS and MX can fail, and `RdataIndex` happens exactly for MX shorter than two octets |
| `Response.NameRDataRoundTrip` | DnsClient.java:158-166 | a CNAME or NS record whose RDATA is an encoded valid name yields that name |
| `Response.MailExchangeRoundTrip` | DnsClient.java:167-171 | an MX record whose RDATA is a preference and an encoded valid name yields both |
| `Response.CompressedAlias` | DnsClient.java:158-161 | a CNAME whose RDATA is a pointer to a name elsewhere in the reply yields that name |
| `Response.CompressedExchange` | DnsClient.java:167-171 | an MX record whose RDATA is a preference, labels of its own and a pointer to a name earlier in the reply yields the preference and the labels, a dot and that name |
| `Response.EncodedAnswer` | DnsClient.java:145-174 | where a record is encoded, the answer read there is that record with its RDATA interpreted from 12 octets in, and reading fails exactly when interpreting fails, with the same error |
| `Response.WalkFrom` | DnsClient.java:145-175 | a walk that completes has exactly ANCOUNT answers, and one that fails has fewer |
| `Response.WalkCursor` | DnsClient.java:145-153 | after a completed walk, the cursor is the start plus the sizes of the records read |
| `Response.OffsetCons` | DnsClient.java:145-153 | the first record starts at the cursor, and each later one starts where it does among the records behind the first |
| `Response.LaidOutAt` | DnsClient.java:145-153 | of records laid out back to back, each one reads back at the offset where it starts |
| `Response.WalkFromAgrees` | DnsClient.java:145-175 | if the answer read at the start of each record is that record with its interpretation, the walk takes the records in order with their values until the first failing one, and stops with that record's error, or ends past all of them |
| `Response.AgreesFirst` | DnsClient.java:145-175 | one more record in front of a walk that agrees with the records behind it: the walk stops on its error, or takes it with its value and continues |
| `Response.WalkLaidOut` | DnsClient.java:145-175 | over records laid out back to back, the walk yields them in order, each with its RDATA interpreted where it sits in the reply; it either ends past all of them, or stops at the first record whose RDATA does not interpret, with that error |
| `Response.InertWalkCompletes` | DnsClient.java:155-174 | a walk over records other than CNAME, NS and MX never stops early: it reads all of them and ends past them |
| `Response.WalkRoundTrip` | DnsClient.java:145-175 | walking over encoded records, wherever they sit, yields them in order, each with its RDATA interpreted where it sits, or stops at the first whose RDATA does not interpret |
| `Response.ParseResponse` | DnsClient.java:93-181 | a reply shorter than 12 octets underflows, and an answer offset past the end fails before RCODE is examined; the reply is rejected exactly for RCODE 1 to 5, with the matching error; a parsed reply has ANCOUNT answers and the header's AA and ARCOUNT; a failure keeps fewer answers than ANCOUNT |
| `Response.ParsedAgrees` | DnsClient.java:93-181 | when that walk agrees with some records, the outcome carries them with their values, or the ones before the failing record with its error |
| `Response.ResponseWalk` | DnsClient.java:93-181 | a reply built from a header with a non-error RCODE, a question of the query's size, ANCOUNT encoded records of any types and anything after them is answered with the header's AA and ARCOUNT and the records in order, each with its RDATA interpreted where it sits in the reply; or it fails at the first record whose RDATA does not interpret, with that error, keeping the answers before it |
| `Response.ResponseRoundTrip` | DnsClient.java:93-181 | when no record is a CNAME, NS or MX, such a reply is answered with exactly those records, each A record of four octets as its address and every other one as its raw RDATA, with the header's AA and ARCOUNT |
| `Client.Received` | DnsClient.java:37-69 | what `parseResponse` receives is the datagram's first octets, at most 512 of them; a datagram loses octets only when it fills the buffer |
| `Client.TryFromCharacterized` | DnsClient.java:40-64 | from an attempt after failures only, the loop gives up exactly when all remaining attempts fail, and otherwise keeps the first reply |
| `Client.DeliverCharacterized` | DnsClient.java:38-64 | at most `retries` attempts are made; the loop gives up exactly when all of them fail; otherwise the first reply is kept |
| `Client.SendWithRetry` | DnsClient.java:38-71 | the loop as written, with its counter, flag and early return, delivers what `Client.Deliver` defines: the first reply within the budget, or nothing; and it delivers the untouched buffer when `retries` is not positive |
| `Client.Run` | DnsClient.java:38-71 | a run parses a reply exactly when the retries did not run out |
| `Client.NoAttemptOutcome` | DnsClient.java:37-71 | with `retries` at most 0, the all-zero buffer is parsed: no answers and AA clear, or `BadPosition` if the question would not fit |
| `Client.ReplyParsed` | DnsClient.java:38-71 | a reply after fewer than `retries` timeouts is parsed, cut to 512 octets |

## Left out

- Sockets, `send`, `receive`, `InetAddress.getByName`, the socket timeout and the port (DnsClient.java:32-37, 49-50, 66). This is network I/O. What each attempt brings is the `network` parameter of `Client`.
- Wall-clock timing and the floating-point response time (DnsClient.java:46-54). These are clock input and floating point.
- All printing of results, errors and retries. The model returns `Outcome`, `Delivery` and error values instead.
- The formatting of an address as a dotted quad, of TTLs and of raw RDATA (DnsClient.java:157, 173). This is presentation: the model keeps the octets.
- `parseArguments` (DnsClient.java:187-215), and `main` carrying on with the static defaults after a malformed command line. This is command-line glue that mutates static fields. The domain, the query type and `retries` are parameters.
- `new Random().nextBytes` for the identifier (DnsClient.java:221-222). The identifier is a parameter.
- `printBytes` and the unused `Base64` import.
- A query type other than A, NS and MX. `parseArguments` can set no other, so `Query.QueryType` has exactly three values.
- Round trips of names that are not valid. Empty labels, labels over 63 characters and non-ASCII characters of the Basic Multilingual Plane are encoded as the source encodes them, but they are not proved to decode back: the `(byte)` casts lose information there.
- Characters outside the Basic Multilingual Plane. Java's `length()` and `charAt` count UTF-16 code units, and the model counts Unicode scalar values. For `"\U{1F600}"` the source computes `getDomainLength()` as 3 and writes the octets `2, 0x3D, 0x00`, while the model has `Names.DomainLength` 2 and writes `1, 0x00`.
- The catch-all `Error with UDP socket` handler of `main`. A failure inside `parseResponse` is a `Failed` outcome that keeps the answers already read.
- Names.DecodeDomainName: its contract states only the bound on the resume cursor. Its behaviour is stated by the lemmas of `NameProperties`.
- Headers.DecodeHeader: it has no contract of its own. It is characterized by `Headers.HeaderDecodeEncode` and `Headers.HeaderRoundTrip`.
- Names.DomainLength (DnsClient.java:283-291): it has no contract of its own. It is characterized by `Names.EncodeName`, `Query.LabelsLengthJoin` and `Query.RequestLength`.
- Names.Latch (DnsClient.java:307): a helper whose contract only spells out its two cases. Where decoding resumes after a pointer is stated by the contract of `Names.DecodeFrom` and by `NameProperties.PointerResolves`.
- Names.Resume (DnsClient.java:319-321): it has no contract of its own. It is characterized by the contract of `Names.DecodeFrom` and by `NameProperties.PointerResolves`.
- Query.QType (DnsClient.java:266-275): it has no contract of its own. It is the table of three QTYPE values, and `Query.Question` and `Query.ConstructRequest` state where it is written.
- Response.AnswerOffset (DnsClient.java:106-110): it has no contract of its own. Where the walk starts is stated by `Response.ResponseWalk`, and the bound check by `Response.ParseResponse`.
- Response.ReadAnswer, Response.Reading, Response.AnswerReader and Response.ReadAnswers (DnsClient.java:145-175): they have no contracts of their own. They are characterized by `Response.EncodedAnswer`, `Response.WalkFrom` and `Response.WalkLaidOut`.
- Client.TryFrom and Client.Deliver (DnsClient.java:38-65): they have no contracts of their own. They are characterized by `Client.TryFromCharacterized`, `Client.DeliverCharacterized` and `Client.SendWithRetry`.

=== FILE: client.dfy ===
/**
  The attempt loop of the client's `main`: the query is sent, and a
  timeout or any other failure of `send`/`receive` is counted, until a
  reply arrives or `retries` attempts have failed. The network is a
  parameter: `network(i)` is what the i-th attempt (from 0) brings.
  Sockets, clocks and printing are not modelled.
 */
module Client {
  import opened Wire
  import opened Response

  /** What one attempt brings: nothing before the timeout, or a datagram. */
  datatype Attempt = TimedOut | Replied(datagram: seq<Byte>)

  /**
    What the loop hands to `parseResponse`: the content of the receive
    buffer after `failures` failed attempts; or nothing, when every one of
    the `retries` attempts failed and `main` returns.
   */
  datatype Delivery = Reply(data: seq<Byte>, failures: nat) | RetriesExceeded

  /** The size of the receive buffer. */
  const BufferSize: nat := 512

  /** `n` zero octets, a buffer nothing was written into. */
  function Zeros(n: nat): (z: seq<Byte>)
    ensures |z| == n
    ensures forall k :: 0 <= k < n ==> z[k] == 0
  {
    seq(n, _ => 0)
  }

  /**
    A datagram as the 512-octet receive buffer holds it: its first octets,
    as many as fit; only a datagram that fills the buffer loses any.
   */
  function Received(datagram: seq<Byte>): (data: seq<Byte>)
    ensures |data| <= BufferSize && |data| <= |datagram|
    ensures data == datagram[..|data|]
    ensures |data| < BufferSize ==> |data| == |datagram|
  {
    if |datagram| <= BufferSize then datagram else datagram[..BufferSize]
  }

  /**
    The loop as a recursion over the attempt index `i`: a reply ends it; a
    failure that makes the count reach `retries` ends `main`.
   */
  function TryFrom(retries: int, network: nat -> Attempt, i: nat): Delivery
    requires i < retries
    decreases retries - i
  {
    match network(i)
    case Replied(datagram) => Reply(Received(datagram), i)
    case TimedOut => if i + 1 == retries then RetriesExceeded else TryFrom(retries, network, i + 1)
  }

  /**
    The whole loop. With `retries` at most zero it never runs, nothing is
    received, and the untouched 512-octet buffer goes to `parseResponse`.
   */
  function Deliver(retries: int, network: nat -> Attempt): Delivery
  {
    if retries <= 0 then Reply(Zeros(BufferSize), 0) else TryFrom(retries, network, 0)
  }

  /**
    When some attempt replies and all those before it failed: the loop
    stops at the first reply, and gives up only after `retries` failures.
   */
  lemma {:induction false} TryFromCharacterized(retries: int, network: nat -> Attempt, i: nat)
    requires i < retries
    requires forall k :: 0 <= k < i ==> network(k).TimedOut?
    ensures var d := TryFrom(retries, network, i);
            && (d.RetriesExceeded? <==> forall k :: i <= k < retries ==> network(k).TimedOut?)
            && (d.Reply? ==> && i <= d.failures < retries
                             && network(d.failures).Replied?
                             && d.data == Received(network(d.failures).datagram)
                             && forall k :: 0 <= k < d.failures ==> network(k).TimedOut?)
    decreases retries - i
  {
    if network(i).TimedOut? && i + 1 < retries {
      TryFromCharacterized(retries, network, i + 1);
    }
  }

  /** At most `retries` attempts are made; the first reply is the one kept. */
  lemma {:induction false} DeliverCharacterized(retries: int, network: nat -> Attempt)
    ensures var d := Deliver(retries, network);
            && (d.RetriesExceeded? <==> retries > 0 && forall k :: 0 <= k < retries ==> network(k).TimedOut?)
            && (d.Reply? && retries > 0 ==> && d.failures < retries
                                            && network(d.failures).Replied?
                                            && d.data == Received(network(d.failures).datagram)
                                            && forall k :: 0 <= k < d.failures ==> network(k).TimedOut?)
  {
    if retries > 0 {
      TryFromCharacterized(retries, network, 0);
    }
  }

  /**
    The loop as written in `main`: `attempts` counts failures, a reply sets
    the received flag, and the failure that makes the count equal to
    `retries` returns at once.
   */
  method SendWithRetry(retries: int, network: nat -> Attempt) returns (d: Delivery)
    ensures d == Deliver(retries, network)
    ensures retries <= 0 ==> d == Reply(Zeros(BufferSize), 0)
    ensures d.RetriesExceeded? ==> retries > 0 && forall k :: 0 <= k < retries ==> network(k).TimedOut?
    ensures d.Reply? && retries > 0 ==> && d.failures < retries
                                        && network(d.failures).Replied?
                                        && d.data == Received(network(d.failures).datagram)
                                        && forall k :: 0 <= k < d.failures ==> network(k).TimedOut?
  {
    var attempts := 0;
    var received := false;
    var buffer := Zeros(BufferSize);
    while attempts < retries && !received
      invariant 0 <= attempts && (retries > 0 ==> attempts < retries)
      invariant forall k :: 0 <= k < attempts ==> network(k).TimedOut?
      invariant received ==> network(attempts).Replied? && buffer == Received(network(attempts).datagram)
      invariant !received ==> buffer == Zeros(BufferSize)
      invariant retries <= 0 ==> attempts == 0 && !received
      invariant !received && retries > 0 ==> TryFrom(retries, network, attempts) == Deliver(retries, network)
      invariant received ==> Reply(buffer, attempts) == Deliver(retries, network)
      decreases retries - attempts, if received then 0 else 1
    {
      match network(attempts)
      case Replied(datagram) =>
        buffer := Received(datagram);
        received := true;
      case TimedOut =>
        attempts := attempts + 1;
        if attempts == retries {
          return RetriesExceeded;
        }
    }
    d := Reply(buffer, attempts);
  }

  /**
    A run of the client after the query is built: the reply the loop
    delivers, parsed for `domain`; nothing when the retries ran out.
   */
  function Run(domain: string, retries: int, network: nat -> Attempt): (o: Option<Outcome>)
    ensures o.None? <==> Deliver(retries, network).RetriesExceeded?
  {
    match Deliver(retries, network)
    case RetriesExceeded => None
    case Reply(data, _) => Some(ParseResponse(data, domain))
  }

  /**
    With no attempt made, the all-zero buffer reads as a reply with no
    error, no answers and the AA bit clear, provided the question the
    client skips fits in it.
   */
  lemma {:induction false} NoAttemptOutcome(domain: string, retries: int, network: nat -> Attempt)
    requires retries <= 0
    ensures AnswerOffset(domain) <= BufferSize ==> Run(domain, retries, network) == Some(Answered(false, [], 0))
    ensures AnswerOffset(domain) > BufferSize ==> Run(domain, retries, network) == Some(Failed(BadPosition, []))
  {
    var z := Zeros(BufferSize);
    assert U16At(z, 2) == 0 && U16At(z, 6) == 0 && U16At(z, 10) == 0;
  }

  /**
    A reply that arrives after `failures` timeouts, within the retry
    budget, is what gets parsed, cut to the receive buffer.
   */
  lemma {:induction false} ReplyParsed(domain: string, retries: int, network: nat -> Attempt, failures: nat)
    requires failures < retries
    requires forall k :: 0 <= k < failures ==> network(k).TimedOut?
    requires network(failures).Replied?
    ensures Run(domain, retries, network) == Some(ParseResponse(Received(network(failures).datagram), domain))
  {
    DeliverCharacterized(retries, network);
  }
}

=== FILE: header.dfy ===
/**
  The fixed 12-octet message header of section 4.1.1 of RFC 1035: the
  identifier, the flags word and four section counts, all big-endian.
 */
module Headers {
  import opened Wire

  type Nibble = x: int | 0 <= x < 0x10

  type Bits3 = x: int | 0 <= x < 8

  /**
    The flags word, most significant bit first: QR, OPCODE (4 bits), AA,
    TC, RD, RA, Z (3 bits), RCODE (4 bits).
   */
  datatype Flags = Flags(qr: bool, opcode: Nibble, aa: bool, tc: bool, rd: bool,
                         ra: bool, z: Bits3, rcode: Nibble)

  datatype Header = Header(id: U16, flags: Flags, qdCount: U16, anCount: U16, nsCount: U16, arCount: U16)

  function Bit(b: bool): nat
  {
    if b then 1 else 0
  }

  /** The high octet of the flags word: QR, OPCODE, AA, TC, RD. */
  function HighOctet(f: Flags): Byte
  {
    Bit(f.qr) * 0x80 + f.opcode * 8 + Bit(f.aa) * 4 + Bit(f.tc) * 2 + Bit(f.rd)
  }

  /** The low octet of the flags word: RA, Z, RCODE. */
  function LowOctet(f: Flags): Byte
  {
    Bit(f.ra) * 0x80 + f.z * 0x10 + f.rcode
  }

  function EncodeFlags(f: Flags): (v: U16)
    ensures EncodeU16(v) == [HighOctet(f), LowOctet(f)]
  {
    HighOctet(f) * 0x100 + LowOctet(f)
  }

  /** The fields of a flags word, read from its high and low octets. */
  function DecodeFlags(v: U16): Flags
  {
    var hi := v / 0x100;
    var lo := v % 0x100;
    Flags(hi >= 0x80, (hi / 8) % 0x10, (hi / 4) % 2 == 1, (hi / 2) % 2 == 1, hi % 2 == 1,
          lo >= 0x80, (lo / 0x10) % 8, lo % 0x10)
  }

  /** Every flags word is the encoding of its fields: no bit is lost. */
  lemma {:induction false} FlagsDecodeEncode(v: U16)
    ensures EncodeFlags(DecodeFlags(v)) == v
  {
    OctetFields(v / 0x100);
    OctetFields(v % 0x100);
  }

  /** An octet is rebuilt from its top bit, its middle four bits and its three low bits. */
  lemma {:induction false} OctetFields(b: Byte)
    ensures b == Bit(b >= 0x80) * 0x80 + ((b / 8) % 0x10) * 8 + Bit((b / 4) % 2 == 1) * 4
                 + Bit((b / 2) % 2 == 1) * 2 + b % 2
    ensures b == Bit(b >= 0x80) * 0x80 + ((b / 0x10) % 8) * 0x10 + b % 0x10
  {
    HighFields(b);
    LowFields(b);
  }

  /** The split of the high octet: QR, four OPCODE bits, AA, TC, RD. */
  lemma {:induction false} HighFields(b: Byte)
    ensures b == Bit(b >= 0x80) * 0x80 + ((b / 8) % 0x10) * 8 + Bit((b / 4) % 2 == 1) * 4
                 + Bit((b / 2) % 2 == 1) * 2 + b % 2
  {
    var q, r := b / 8, b % 8;
    assert b == q * 8 + r;
    assert Bit(b >= 0x80) == q / 0x10;
    assert q == (q / 0x10) * 0x10 + q % 0x10;
    assert b / 4 == q * 2 + r / 4 && b / 2 == q * 4 + r / 2 && b % 2 == r % 2;
    assert r == (r / 4) * 4 + ((r / 2) % 2) * 2 + r % 2;
  }

  /** The split of the low octet: RA, three Z bits, four RCODE bits. */
  lemma {:induction false} LowFields(b: Byte)
    ensures b == Bit(b >= 0x80) * 0x80 + ((b / 0x10) % 8) * 0x10 + b % 0x10
  {
    assert b == (b / 0x10) * 0x10 + b % 0x10;
    assert b / 0x10 == (b / 0x80) * 8 + (b / 0x10) % 8;
  }

  lemma {:induction false} FlagsRoundTrip(f: Flags)
    ensures DecodeFlags(EncodeFlags(f)) == f
  {
    var v := EncodeFlags(f);
    assert v / 0x100 == HighOctet(f);
    assert v % 0x100 == LowOctet(f);
    HighOctetRoundTrip(f);
    LowOctetRoundTrip(f);
  }

  lemma {:induction false} HighOctetRoundTrip(f: Flags)
    ensures var hi := HighOctet(f);
      && (hi >= 0x80) == f.qr && (hi / 8) % 0x10 == f.opcode && ((hi / 4) % 2 == 1) == f.aa
      && ((hi / 2) % 2 == 1) == f.tc && (hi % 2 == 1) == f.rd
  {
    var top := Bit(f.qr) * 0x10 + f.opcode;
    var low3 := Bit(f.aa) * 4 + Bit(f.tc) * 2 + Bit(f.rd);
    var hi := HighOctet(f);
    assert hi == top * 8 + low3;
    assert hi / 8 == top && hi % 8 == low3;
    assert top % 0x10 == f.opcode;
    assert hi / 4 == top * 2 + Bit(f.aa) && hi / 2 == top * 4 + Bit(f.aa) * 2 + Bit(f.tc);
  }

  lemma {:induction false} LowOctetRoundTrip(f: Flags)
    ensures var lo := LowOctet(f);
      (lo >= 0x80) == f.ra && (lo / 0x10) % 8 == f.z && lo % 0x10 == f.rcode
  {
    assert LowOctet(f) == (Bit(f.ra) * 8 + f.z) * 0x10 + f.rcode;
  }

  function EncodeHeader(h: Header): (bytes: seq<Byte>)
    ensures |bytes| == 12
  {
    EncodeU16(h.id) + EncodeU16(EncodeFlags(h.flags)) + EncodeU16(h.qdCount)
    + EncodeU16(h.anCount) + EncodeU16(h.nsCount) + EncodeU16(h.arCount)
  }

  /** The header at the start of a message: six 16-bit fields. */
  function DecodeHeader(data: seq<Byte>): Header
    requires |data| >= 12
  {
    Header(U16At(data, 0), DecodeFlags(U16At(data, 2)), U16At(data, 4),
           U16At(data, 6), U16At(data, 8), U16At(data, 10))
  }

  /** Encoding the header read from a message gives back its first 12 octets. */
  lemma {:induction false} HeaderDecodeEncode(data: seq<Byte>)
    requires |data| >= 12
    ensures EncodeHeader(DecodeHeader(data)) == data[..12]
  {
    var h := DecodeHeader(data);
    U16AtEncoding(data, 0);
    FlagsDecodeEncode(U16At(data, 2));
    U16AtEncoding(data, 2);
    U16AtEncoding(data, 4);
    U16AtEncoding(data, 6);
    U16AtEncoding(data, 8);
    U16AtEncoding(data, 10);
    assert data[..12] == data[0..2] + data[2..4] + data[4..6] + data[6..8] + data[8..10] + data[10..12];
  }

  /** Only the first 12 octets determine the header. */
  lemma {:induction false} HeaderPrefix(data: seq<Byte>, rest: seq<Byte>)
    requires |data| >= 12
    ensures DecodeHeader(data + rest) == DecodeHeader(data)
  {
    U16AtPrefix(data, rest, 0);
    U16AtPrefix(data, rest, 2);
    U16AtPrefix(data, rest, 4);
    U16AtPrefix(data, rest, 6);
    U16AtPrefix(data, rest, 8);
    U16AtPrefix(data, rest, 10);
  }

  lemma {:induction false} HeaderRoundTrip(h: Header, rest: seq<Byte>)
    ensures DecodeHeader(EncodeHeader(h) + rest) == h
  {
    var bytes := EncodeHeader(h);
    HeaderPrefix(bytes, rest);
    FlagsRoundTrip(h.flags);
    U16AtEncoded(bytes, 0, h.id);
    U16AtEncoded(bytes, 2, EncodeFlags(h.flags));
    U16AtEncoded(bytes, 4, h.qdCount);
    U16AtEncoded(bytes, 6, h.anCount);
    U16AtEncoded(bytes, 8, h.nsCount);
    U16AtEncoded(bytes, 10, h.arCount);
  }
}

=== FILE: name_properties.dfy ===
/**
  What the name decoder guarantees: labels written by the encoder decode
  back to the dotted name, a compression pointer decodes as its target
  does while the caller resumes right after the pointer, labels ending in
  a pointer decode to the labels followed by the target's name, and the
  pointer
  budget runs out exactly when the source's loop follows pointers
  forever: it spins on a cycle of pointers alone, or grows the name until
  `OutOfMemoryError`.
 */
module NameProperties {
  import opened Wire
  import opened Names

  /* ---------------------------------------------------------------------- */
  /* Round trip                                                             */
  /* ---------------------------------------------------------------------- */

  /**
    The labels `pieces` laid down at `i` one after another, each as a
    length octet below 0xC0 followed by octets that read back as the label,
    and closed by a zero octet.
   */
  predicate LabelsAt(data: seq<Byte>, i: nat, pieces: seq<string>)
    decreases |pieces|
  {
    if |pieces| == 0 then i < |data| && data[i] == 0
    else
      var l := pieces[0];
      && 0 < |l| < 0xC0
      && i + |l| < |data|
      && data[i] == |l|
      && Chars(data[i + 1..i + |l| + 1]) == l
      && LabelsAt(data, i + |l| + 1, pieces[1..])
  }

  /** The octets of one encoded label followed by `tail`, as seen from the message. */
  lemma {:induction false} LabelWindow(data: seq<Byte>, i: nat, l: string, tail: seq<Byte>) returns (next: nat)
    requires ValidLabel(l)
    requires i + |l| + 1 + |tail| <= |data|
    requires data[i..i + |l| + 1 + |tail|] == EncodeLabel(l) + tail
    ensures next == i + |l| + 1
    ensures data[i] == |l|
    ensures Chars(data[i + 1..next]) == l
    ensures data[next..next + |tail|] == tail
  {
    var window := data[i..i + |l| + 1 + |tail|];
    next := i + |l| + 1;
    assert window[0] == data[i];
    forall k | 0 <= k < |l|
      ensures data[i + 1 + k] == Bytes(l)[k]
    {
      assert window[1 + k] == data[i + 1 + k];
    }
    assert data[i + 1..next] == Bytes(l);
    AsciiRoundTrip(l);
    forall k | 0 <= k < |tail|
      ensures data[next + k] == tail[k]
    {
      assert window[|l| + 1 + k] == data[next + k];
    }
  }

  /** The octets EncodeLabels writes, followed by a zero octet, are laid out as LabelsAt says. */
  lemma {:induction false} EncodedLabelsAt(data: seq<Byte>, i: nat, pieces: seq<string>)
    requires forall l :: l in pieces ==> ValidLabel(l)
    requires i + LabelsLength(pieces) < |data|
    requires data[i..i + LabelsLength(pieces) + 1] == EncodeLabels(pieces) + [0]
    ensures LabelsAt(data, i, pieces)
    decreases |pieces|
  {
    if |pieces| == 0 {
      assert data[i] == data[i..i + 1][0];
    } else {
      var rest := pieces[1..];
      var tail := EncodeLabels(rest) + [0];
      assert pieces[0] in pieces;
      assert EncodeLabels(pieces) + [0] == EncodeLabel(pieces[0]) + tail by {
        assert EncodeLabels(pieces) == EncodeLabel(pieces[0]) + EncodeLabels(rest);
      }
      var next := LabelWindow(data, i, pieces[0], tail);
      assert forall m :: m in rest ==> m in pieces;
      EncodedLabelsAt(data, next, rest);
    }
  }

  /**
    Labels laid out as LabelsAt says decode to the same labels, joined by
    dots after `name`, and the cursor moves past the zero octet.
   */
  lemma {:induction false} DecodeLabels(data: seq<Byte>, i: nat, pieces: seq<string>, jump: Option<nat>,
                                         name: string, hops: nat)
    requires LabelsAt(data, i, pieces)
    ensures DecodeFrom(data, i, jump, name, hops)
         == Ok(Decoded(ExtendAll(name, pieces), Resume(jump, i + LabelsLength(pieces) + 1)))
    decreases |pieces|
  {
    if |pieces| > 0 {
      var l := pieces[0];
      var next := i + |l| + 1;
      assert DecodeFrom(data, next, jump, Extend(name, l), hops)
          == Ok(Decoded(ExtendAll(Extend(name, l), pieces[1..]), Resume(jump, next + LabelsLength(pieces[1..]) + 1))) by {
        DecodeLabels(data, next, pieces[1..], jump, Extend(name, l), hops);
      }
      LabelChain(data, i, pieces, jump, name, hops);
    }
  }

  /** One label read, then the rest as the recursive call found them. */
  lemma {:induction false} LabelChain(data: seq<Byte>, i: nat, pieces: seq<string>, jump: Option<nat>, name: string, hops: nat)
    requires |pieces| > 0
    requires LabelsAt(data, i, pieces)
    requires DecodeFrom(data, i + |pieces[0]| + 1, jump, Extend(name, pieces[0]), hops)
          == Ok(Decoded(ExtendAll(Extend(name, pieces[0]), pieces[1..]),
                        Resume(jump, i + |pieces[0]| + 1 + LabelsLength(pieces[1..]) + 1)))
    ensures DecodeFrom(data, i, jump, name, hops)
         == Ok(Decoded(ExtendAll(name, pieces), Resume(jump, i + LabelsLength(pieces) + 1)))
  {
    assert i + |pieces[0]| + 1 + LabelsLength(pieces[1..]) + 1 == i + LabelsLength(pieces) + 1;
  }

  /** Extending a non-empty name by labels puts a dot before each of them. */
  lemma {:induction false} ExtendAllJoin(name: string, pieces: seq<string>)
    requires |name| > 0
    requires |pieces| >= 1
    ensures ExtendAll(name, pieces) == name + "." + Join(pieces)
    decreases |pieces|
  {
    if |pieces| > 1 {
      ExtendAllJoin(Extend(name, pieces[0]), pieces[1..]);
    }
  }

  /** Decoding the labels of a valid name from an empty start gives the dotted name back. */
  lemma {:induction false} ExtendAllFromEmpty(pieces: seq<string>)
    requires |pieces| >= 1
    requires |pieces[0]| >= 1
    ensures ExtendAll("", pieces) == Join(pieces)
  {
    assert Extend("", pieces[0]) == pieces[0];
    if |pieces| > 1 {
      ExtendAllJoin(pieces[0], pieces[1..]);
    }
  }

  /**
    A valid name encoded at `start` decodes to itself, with no leading dot,
    and the cursor lands just past its zero octet.
   */
  lemma {:induction false} NameAt(data: seq<Byte>, start: nat, domain: string)
    requires ValidDomain(domain)
    requires start + |EncodeName(domain)| <= |data|
    requires data[start..start + |EncodeName(domain)|] == EncodeName(domain)
    ensures DecodeDomainName(data, start) == Ok(Decoded(domain, start + DomainLength(domain) + 1))
  {
    var pieces := DomainLabels(domain);
    StartLabels(data, start, pieces);
  }

  /** The labels of a valid name: all valid, and decoding them from nothing spells the name. */
  lemma {:induction false} DomainLabels(domain: string) returns (pieces: seq<string>)
    requires ValidDomain(domain)
    ensures forall l :: l in pieces ==> ValidLabel(l)
    ensures EncodeName(domain) == EncodeLabels(pieces) + [0]
    ensures ExtendAll("", pieces) == domain
  {
    pieces := Split(domain);
    ValidDomainPieces(domain);
    assert pieces[0] in pieces;
    ExtendAllFromEmpty(pieces);
  }

  /** DecodeLabels from the start of a name: no resume position, empty text, a full budget. */
  lemma {:induction false} StartLabels(data: seq<Byte>, start: nat, pieces: seq<string>)
    requires forall l :: l in pieces ==> ValidLabel(l)
    requires start + LabelsLength(pieces) < |data|
    requires data[start..start + LabelsLength(pieces) + 1] == EncodeLabels(pieces) + [0]
    ensures DecodeDomainName(data, start) == Ok(Decoded(ExtendAll("", pieces), start + LabelsLength(pieces) + 1))
  {
    EncodedLabelsAt(data, start, pieces);
    DecodeLabels(data, start, pieces, None, "", |data|);
  }

  /** NameAt for a name placed between any two octet strings. */
  lemma {:induction false} NameRoundTrip(data: seq<Byte>, prefix: seq<Byte>, domain: string, suffix: seq<Byte>)
    requires ValidDomain(domain)
    requires data == prefix + EncodeName(domain) + suffix
    ensures DecodeDomainName(data, |prefix|) == Ok(Decoded(domain, |prefix| + DomainLength(domain) + 1))
  {
    MiddleSlice(prefix, EncodeName(domain), suffix);
    NameAt(data, |prefix|, domain);
  }

  /* ---------------------------------------------------------------------- */
  /* The latched cursor                                                     */
  /* ---------------------------------------------------------------------- */

  /**
    Control flow does not depend on the name built so far nor on the
    latched cursor: both runs fail alike or succeed alike, and with equal
    names they produce equal names.
   */
  lemma {:induction false} JumpIndependence(data: seq<Byte>, i: nat, jump1: Option<nat>, jump2: Option<nat>,
                                             name1: string, name2: string, hops: nat)
    ensures DecodeFrom(data, i, jump1, name1, hops).Err? <==> DecodeFrom(data, i, jump2, name2, hops).Err?
    ensures DecodeFrom(data, i, jump1, name1, hops).Err?
        ==> DecodeFrom(data, i, jump1, name1, hops).error == DecodeFrom(data, i, jump2, name2, hops).error
    ensures name1 == name2 && DecodeFrom(data, i, jump1, name1, hops).Ok?
        ==> DecodeFrom(data, i, jump1, name1, hops).value.name == DecodeFrom(data, i, jump2, name2, hops).value.name
    decreases hops, |data| - i
  {
    if i < |data| && data[i] != 0 {
      if IsPointer(data[i]) {
        if i + 1 < |data| && hops > 0 {
          JumpIndependence(data, PointerTarget(data[i], data[i + 1]), Latch(jump1, i + 2), Latch(jump2, i + 2),
                           name1, name2, hops - 1);
        }
      } else if i + data[i] < |data| {
        var piece := Chars(data[i + 1..i + data[i] + 1]);
        JumpIndependence(data, i + data[i] + 1, jump1, jump2, Extend(name1, piece), Extend(name2, piece), hops);
      }
    }
  }

  /* ---------------------------------------------------------------------- */
  /* The pointer budget                                                     */
  /* ---------------------------------------------------------------------- */

  /** A run that ends without exhausting its budget ends the same way with any larger budget. */
  lemma {:induction false} HopMonotone(data: seq<Byte>, i: nat, jump: Option<nat>, name: string, hops: nat, more: nat)
    requires hops <= more
    ensures DecodeFrom(data, i, jump, name, hops) != Err(PointerLoop)
        ==> DecodeFrom(data, i, jump, name, more) == DecodeFrom(data, i, jump, name, hops)
    decreases hops, |data| - i
  {
    if i < |data| && data[i] != 0 {
      if IsPointer(data[i]) {
        if i + 1 < |data| && hops > 0 {
          HopMonotone(data, PointerTarget(data[i], data[i + 1]), Latch(jump, i + 2), name, hops - 1, more - 1);
        }
      } else if i + data[i] < |data| {
        HopMonotone(data, i + data[i] + 1, jump, Extend(name, Chars(data[i + 1..i + data[i] + 1])), hops, more);
      }
    }
  }

  /**
    The position of the next pointer the decoder follows from `i`, after
    skipping ordinary labels; None when the name ends or is cut off first.
   */
  ghost function NextPointer(data: seq<Byte>, i: nat): (p: Option<nat>)
    ensures p.Some? ==> p.value + 1 < |data| && IsPointer(data[p.value])
    decreases |data| - i
  {
    if i >= |data| || data[i] == 0 then None
    else if IsPointer(data[i]) then (if i + 1 < |data| then Some(i) else None)
    else if i + data[i] >= |data| then None
    else NextPointer(data, i + data[i] + 1)
  }

  /** The position of the pointer followed after `k` earlier ones, when the run gets that far. */
  ghost function Visit(data: seq<Byte>, i: nat, k: nat): (p: Option<nat>)
    ensures p.Some? ==> p.value + 1 < |data| && IsPointer(data[p.value])
    decreases k
  {
    match NextPointer(data, i)
    case None => None
    case Some(p) => if k == 0 then Some(p) else Visit(data, PointerTarget(data[p], data[p + 1]), k - 1)
  }

  /** The budget runs out exactly when the run reaches a pointer after spending all of it. */
  lemma {:induction false} LoopsIffVisit(data: seq<Byte>, i: nat, jump: Option<nat>, name: string, hops: nat)
    ensures DecodeFrom(data, i, jump, name, hops) == Err(PointerLoop) <==> Visit(data, i, hops).Some?
    decreases hops, |data| - i
  {
    if i < |data| && data[i] != 0 {
      if IsPointer(data[i]) {
        if i + 1 < |data| && hops > 0 {
          LoopsIffVisit(data, PointerTarget(data[i], data[i + 1]), Latch(jump, i + 2), name, hops - 1);
        }
      } else if i + data[i] < |data| {
        var next := i + data[i] + 1;
        assert NextPointer(data, i) == NextPointer(data, next);
        assert Visit(data, i, hops) == Visit(data, next, hops);
        LoopsIffVisit(data, next, jump, Extend(name, Chars(data[i + 1..i + data[i] + 1])), hops);
      }
    }
  }

  lemma {:induction false} VisitMonotone(data: seq<Byte>, i: nat, k: nat, fewer: nat)
    requires fewer <= k
    requires Visit(data, i, k).Some?
    ensures Visit(data, i, fewer).Some?
    decreases fewer
  {
    if fewer > 0 {
      var p := NextPointer(data, i).value;
      VisitMonotone(data, PointerTarget(data[p], data[p + 1]), k - 1, fewer - 1);
    }
  }

  /** After reaching the pointer at `p`, the run continues exactly as a run started at `p`. */
  lemma {:induction false} VisitShift(data: seq<Byte>, i: nat, a: nat, m: nat)
    requires Visit(data, i, a).Some?
    ensures Visit(data, i, a + m) == Visit(data, Visit(data, i, a).value, m)
    decreases a
  {
    var q := NextPointer(data, i).value;
    if a == 0 {
      assert NextPointer(data, q) == Some(q);
    } else {
      VisitShift(data, PointerTarget(data[q], data[q + 1]), a - 1, m);
    }
  }

  /** A pointer reached again from itself is reached again forever. */
  lemma {:induction false} CycleForever(data: seq<Byte>, p: nat, c: nat, m: nat)
    requires c >= 1
    requires Visit(data, p, c) == Some(p)
    ensures Visit(data, p, m).Some?
    decreases m
  {
    if m <= c {
      VisitMonotone(data, p, c, m);
    } else {
      VisitShift(data, p, c, m - c);
      CycleForever(data, p, c, m - c);
    }
  }

  /** More than `bound` values below `bound` contain a repetition. */
  lemma {:induction false} Pigeonhole(s: seq<nat>, bound: nat)
    requires forall k :: 0 <= k < |s| ==> s[k] < bound
    requires |s| > bound
    ensures exists a, b :: 0 <= a < b < |s| && s[a] == s[b]
    decreases |s|
  {
    var last := |s| - 1;
    var x := s[last];
    if x in s[..last] {
      var a :| 0 <= a < last && s[..last][a] == x;
      assert s[a] == s[last];
    } else {
      var t := seq(last, k requires 0 <= k < last => if s[k] > x then s[k] - 1 else s[k]);
      assert forall k :: 0 <= k < last ==> s[k] != x by {
        forall k | 0 <= k < last ensures s[k] != x {
          assert s[..last][k] == s[k];
        }
      }
      Pigeonhole(t, bound - 1);
      var a, b :| 0 <= a < b < |t| && t[a] == t[b];
      assert s[a] == s[b];
    }
  }

  /** Among the first hops + 1 pointers of a long enough run, one position repeats. */
  lemma {:induction false} RepeatedPointer(data: seq<Byte>, i: nat, hops: nat) returns (a: nat, b: nat)
    requires hops + 1 >= |data|
    requires forall k :: 0 <= k <= hops ==> Visit(data, i, k).Some?
    ensures a < b <= hops
    ensures Visit(data, i, a).Some? && Visit(data, i, a) == Visit(data, i, b)
  {
    assert Visit(data, i, 0).Some?;
    var s := seq(hops + 1, k requires 0 <= k <= hops => Visit(data, i, k).value);
    assert forall k :: 0 <= k < |s| ==> s[k] < |data| - 1;
    Pigeonhole(s, |data| - 1);
    a, b :| 0 <= a < b < |s| && s[a] == s[b];
  }

  /** A run that reaches in a cycle and reaches every number of pointers. */
  lemma {:induction false} VisitBounded(data: seq<Byte>, i: nat, hops: nat)
    requires hops + 1 >= |data|
    requires Visit(data, i, hops).Some?
    ensures forall k :: Visit(data, i, k).Some?
  {
    forall k | 0 <= k <= hops
      ensures Visit(data, i, k).Some?
    {
      VisitMonotone(data, i, hops, k);
    }
    var a, b := RepeatedPointer(data, i, hops);
    var p := Visit(data, i, a).value;
    VisitShift(data, i, a, b - a);
    forall k: nat
      ensures Visit(data, i, k).Some?
    {
      if k <= a {
        VisitMonotone(data, i, a, k);
      } else {
        VisitShift(data, i, a, k - a);
        CycleForever(data, p, b - a, k - a);
      }
    }
  }

  /**
    Any budget of at least |data| - 1 pointers gives the same outcome as any
    larger one: the source's loop, which has no budget, ends the same way.
   */
  lemma {:induction false} BudgetSuffices(data: seq<Byte>, i: nat, jump: Option<nat>, name: string, hops: nat, more: nat)
    requires hops + 1 >= |data|
    requires hops <= more
    ensures DecodeFrom(data, i, jump, name, more) == DecodeFrom(data, i, jump, name, hops)
  {
    if DecodeFrom(data, i, jump, name, hops) == Err(PointerLoop) {
      LoopsIffVisit(data, i, jump, name, hops);
      VisitBounded(data, i, hops);
      LoopsIffVisit(data, i, jump, name, more);
    } else {
      HopMonotone(data, i, jump, name, hops, more);
    }
  }

  /**
    DecodeDomainName reports PointerLoop exactly when decoding runs out of
    hops with every budget, that is, when the source's loop follows
    pointers forever: it spins on a cycle of pointers alone, or grows the
    name until `OutOfMemoryError` on a cycle that passes a label.
   */
  lemma {:induction false} DivergenceIsReal(data: seq<Byte>, offset: nat)
    ensures DecodeDomainName(data, offset) == Err(PointerLoop)
        <==> forall hops: nat :: DecodeFrom(data, offset, None, "", hops) == Err(PointerLoop)
  {
    if DecodeDomainName(data, offset) == Err(PointerLoop) {
      forall hops: nat
        ensures DecodeFrom(data, offset, None, "", hops) == Err(PointerLoop)
      {
        if hops <= |data| {
          HopMonotone(data, offset, None, "", hops, |data|);
        } else {
          BudgetSuffices(data, offset, None, "", |data|, hops);
        }
      }
    } else {
      assert DecodeFrom(data, offset, None, "", |data|) != Err(PointerLoop);
    }
  }

  /** A pointer to itself: every budget is spent and the source would spin forever. */
  lemma {:induction false} SelfPointerLoops(data: seq<Byte>, p: nat, jump: Option<nat>, name: string, hops: nat)
    requires p + 1 < |data|
    requires IsPointer(data[p])
    requires PointerTarget(data[p], data[p + 1]) == p
    ensures DecodeFrom(data, p, jump, name, hops) == Err(PointerLoop)
    decreases hops
  {
    if hops > 0 {
      SelfPointerLoops(data, p, Latch(jump, p + 2), name, hops - 1);
    }
  }

  /* ---------------------------------------------------------------------- */
  /* Compression pointers                                                   */
  /* ---------------------------------------------------------------------- */

  /**
    A name that starts with a pointer decodes as the name at the pointer's
    target, and the caller resumes two octets after the pointer, however
    many further pointers the target's name follows.
   */
  lemma {:induction false} PointerResolves(data: seq<Byte>, p: nat)
    requires p + 1 < |data|
    requires IsPointer(data[p])
    ensures var target := PointerTarget(data[p], data[p + 1]);
      DecodeDomainName(data, p)
        == match DecodeDomainName(data, target)
           case Ok(d) => Ok(Decoded(d.name, p + 2))
           case Err(e) => Err(e)
  {
    var target := PointerTarget(data[p], data[p + 1]);
    BudgetSuffices(data, target, Some(p + 2), "", |data| - 1, |data|);
    JumpIndependence(data, target, None, Some(p + 2), "", "", |data|);
  }

  /** Two octets encoding 0xC000 + `target` form a compression pointer to `target`. */
  lemma {:induction false} PointerAt(data: seq<Byte>, p: nat, target: nat)
    requires target < 0x4000
    requires p + 2 <= |data|
    requires data[p..p + 2] == EncodeU16(0xC000 + target)
    ensures IsPointer(data[p])
    ensures PointerTarget(data[p], data[p + 1]) == target
  {
    assert data[p] == EncodeU16(0xC000 + target)[0];
    assert data[p + 1] == EncodeU16(0xC000 + target)[1];
  }

  /**
    A name written as a bare pointer to an earlier copy of it decodes to
    that name, and parsing resumes right after the pointer.
   */
  lemma {:induction false} PointerToName(data: seq<Byte>, target: nat, domain: string, p: nat)
    requires ValidDomain(domain)
    requires target < 0x4000
    requires target + |EncodeName(domain)| <= |data|
    requires data[target..target + |EncodeName(domain)|] == EncodeName(domain)
    requires p + 2 <= |data|
    requires data[p..p + 2] == EncodeU16(0xC000 + target)
    ensures DecodeDomainName(data, p) == Ok(Decoded(domain, p + 2))
  {
    PointerAt(data, p, target);
    PointerResolves(data, p);
    NameAt(data, target, domain);
  }

  /** PointerToName for a name and, later, a pointer to it, between any octet strings. */
  lemma {:induction false} CompressedRepeat(prefix: seq<Byte>, domain: string, suffix: seq<Byte>)
    requires ValidDomain(domain)
    requires |prefix| < 0x4000
    ensures var first := prefix + EncodeName(domain);
      DecodeDomainName(first + EncodeU16(0xC000 + |prefix|) + suffix, |first|)
        == Ok(Decoded(domain, |first| + 2))
  {
    var pointer := EncodeU16(0xC000 + |prefix|);
    var first := prefix + EncodeName(domain);
    var data := first + pointer + suffix;
    assert data[|first|..|first| + 2] == pointer by {
      MiddleSlice(first, pointer, suffix);
    }
    assert data[|prefix|..|prefix| + |EncodeName(domain)|] == EncodeName(domain) by {
      assert data == prefix + EncodeName(domain) + (pointer + suffix);
      MiddleSlice(prefix, EncodeName(domain), pointer + suffix);
    }
    PointerToName(data, |prefix|, domain, |first|);
  }

  /* ---------------------------------------------------------------------- */
  /* Labels ending in a pointer                                             */
  /* ---------------------------------------------------------------------- */

  /** Two parts of a name one after the other, with a dot between them when both are non-empty. */
  function Glue(a: string, b: string): string
  {
    if a == "" then b else if b == "" then a else a + "." + b
  }

  /** A decoding result with `name` written in front of the decoded name; an error stays as it is. */
  function After(name: string, r: Result<Decoded, DecodeError>): Result<Decoded, DecodeError>
  {
    match r
    case Ok(d) => Ok(Decoded(Glue(name, d.name), d.next))
    case Err(e) => Err(e)
  }

  /** Extending a glued name by a label is gluing the extended second part. */
  lemma {:induction false} ExtendGlue(name: string, x: string, piece: string)
    requires |piece| > 0
    ensures Extend(Glue(name, x), piece) == Glue(name, Extend(x, piece))
  {
    if name != "" && x != "" {
      assert name + "." + x + "." + piece == name + "." + (x + "." + piece);
    }
  }

  /**
    The text in front of `x` stays in front: the run that starts from
    `Glue(name, x)` is the run from `x` with `name` glued before the
    decoded name, failing the same way and resuming at the same place.
   */
  lemma {:induction false} GlueFrom(data: seq<Byte>, i: nat, jump: Option<nat>, name: string, x: string, hops: nat)
    ensures DecodeFrom(data, i, jump, Glue(name, x), hops) == After(name, DecodeFrom(data, i, jump, x, hops))
    decreases hops, |data| - i
  {
    if i < |data| && data[i] != 0 {
      if IsPointer(data[i]) {
        if i + 1 < |data| && hops > 0 {
          GlueFrom(data, PointerTarget(data[i], data[i + 1]), Latch(jump, i + 2), name, x, hops - 1);
        }
      } else if i + data[i] < |data| {
        var piece := Chars(data[i + 1..i + data[i] + 1]);
        ExtendGlue(name, x, piece);
        GlueFrom(data, i + data[i] + 1, jump, name, Extend(x, piece), hops);
      }
    }
  }

  /**
    The text decoded so far only stands in front of the rest of the name:
    the run succeeds exactly when the run from empty text does, with
    `name` and a dot before its name and the same resume position, and
    otherwise fails with the same error.
   */
  lemma {:induction false} NameGlue(data: seq<Byte>, i: nat, jump: Option<nat>, name: string, hops: nat)
    ensures DecodeFrom(data, i, jump, name, hops) == After(name, DecodeFrom(data, i, jump, "", hops))
  {
    assert Glue(name, "") == name;
    GlueFrom(data, i, jump, name, "", hops);
  }

  /**
    The labels `pieces` laid down at `i` one after another as LabelsAt
    says, with nothing required of what follows them.
   */
  predicate LabelsRun(data: seq<Byte>, i: nat, pieces: seq<string>)
    decreases |pieces|
  {
    if |pieces| == 0 then true
    else
      var l := pieces[0];
      && 0 < |l| < 0xC0
      && i + |l| < |data|
      && data[i] == |l|
      && Chars(data[i + 1..i + |l| + 1]) == l
      && LabelsRun(data, i + |l| + 1, pieces[1..])
  }

  /** The octets EncodeLabels writes are laid out as LabelsRun says. */
  lemma {:induction false} EncodedLabelsRun(data: seq<Byte>, i: nat, pieces: seq<string>)
    requires forall l :: l in pieces ==> ValidLabel(l)
    requires i + LabelsLength(pieces) <= |data|
    requires data[i..i + LabelsLength(pieces)] == EncodeLabels(pieces)
    ensures LabelsRun(data, i, pieces)
    decreases |pieces|
  {
    if |pieces| > 0 {
      var rest := pieces[1..];
      assert pieces[0] in pieces;
      assert EncodeLabels(pieces) == EncodeLabel(pieces[0]) + EncodeLabels(rest);
      var next := LabelWindow(data, i, pieces[0], EncodeLabels(rest));
      assert forall m :: m in rest ==> m in pieces;
      EncodedLabelsRun(data, next, rest);
    }
  }

  /**
    Labels laid out at `i` are read one after the other, whatever follows
    them: decoding goes on after the last of them with the labels added to
    the name.
   */
  lemma {:induction false} LabelsThen(data: seq<Byte>, i: nat, pieces: seq<string>, jump: Option<nat>, name: string, hops: nat)
    requires LabelsRun(data, i, pieces)
    ensures DecodeFrom(data, i, jump, name, hops)
         == DecodeFrom(data, i + LabelsLength(pieces), jump, ExtendAll(name, pieces), hops)
    decreases |pieces|
  {
    if |pieces| > 0 {
      var l := pieces[0];
      var next := i + |l| + 1;
      LabelStep(data, i, l, jump, name, hops);
      LabelsThen(data, next, pieces[1..], jump, Extend(name, l), hops);
      assert next + LabelsLength(pieces[1..]) == i + LabelsLength(pieces);
    }
  }

  /** One label read: the loop moves past it with the label added to the name. */
  lemma {:induction false} LabelStep(data: seq<Byte>, i: nat, l: string, jump: Option<nat>, name: string, hops: nat)
    requires 0 < |l| < 0xC0
    requires i + |l| < |data|
    requires data[i] == |l|
    requires Chars(data[i + 1..i + |l| + 1]) == l
    ensures DecodeFrom(data, i, jump, name, hops) == DecodeFrom(data, i + |l| + 1, jump, Extend(name, l), hops)
  {
  }

  /**
    The usual compressed name: labels followed by a pointer. It decodes to
    the labels, a dot, and the name at the pointer's target, and the caller
    resumes two octets after the pointer; when the target's name does not
    decode, neither does this one, with the same error.
   */
  lemma {:induction false} LabelsThenPointer(data: seq<Byte>, i: nat, pieces: seq<string>, p: nat)
    requires |pieces| >= 1
    requires forall l :: l in pieces ==> ValidLabel(l)
    requires i <= p && p + 1 < |data|
    requires data[i..p] == EncodeLabels(pieces)
    requires IsPointer(data[p])
    ensures var target := PointerTarget(data[p], data[p + 1]);
      DecodeDomainName(data, i)
        == match DecodeDomainName(data, target)
           case Ok(d) => Ok(Decoded(Glue(Join(pieces), d.name), p + 2))
           case Err(e) => Err(e)
  {
    var labels := Join(pieces);
    assert DecodeDomainName(data, i) == DecodeFrom(data, p, None, labels, |data|) by {
      EncodedLabelsRun(data, i, pieces);
      LabelsThen(data, i, pieces, None, "", |data|);
      assert pieces[0] in pieces;
      ExtendAllFromEmpty(pieces);
    }
    assert DecodeFrom(data, p, None, labels, |data|) == After(labels, DecodeDomainName(data, p)) by {
      NameGlue(data, p, None, labels, |data|);
    }
    PointerResolves(data, p);
  }

  /**
    LabelsThenPointer with the pointer aimed at an encoded valid name
    written earlier: the labels, a dot, and that name.
   */
  lemma {:induction false} LabelsThenName(data: seq<Byte>, i: nat, pieces: seq<string>, p: nat, target: nat, domain: string)
    requires |pieces| >= 1
    requires forall l :: l in pieces ==> ValidLabel(l)
    requires ValidDomain(domain)
    requires target < 0x4000
    requires target + |EncodeName(domain)| <= |data|
    requires data[target..target + |EncodeName(domain)|] == EncodeName(domain)
    requires i <= p && p + 2 <= |data|
    requires data[i..p] == EncodeLabels(pieces)
    requires data[p..p + 2] == EncodeU16(0xC000 + target)
    ensures DecodeDomainName(data, i) == Ok(Decoded(Join(pieces) + "." + domain, p + 2))
  {
    PointerAt(data, p, target);
    LabelsThenPointer(data, i, pieces, p);
    NameAt(data, target, domain);
    assert pieces[0] in pieces;
    assert Split(domain)[0] in Split(domain);
    assert Glue(Join(pieces), domain) == Join(pieces) + "." + domain;
  }
}

=== FILE: names.dfy ===
/**
  Domain names: the dotted text form the user types, the label sequence the
  query carries (section 3.1 of RFC 1035), and the decoder that reads a name
  back out of a message, following compression pointers (section 4.1.4).
 */
module Names {
  import opened Wire

  /* ---------------------------------------------------------------------- */
  /* Characters and octets                                                  */
  /* ---------------------------------------------------------------------- */

  /**
    `(byte) c` in Java: the low eight bits of the character's code. A Dafny
    `char` is a Unicode scalar value and a Java `char` a UTF-16 code unit,
    so the two agree on characters of the Basic Multilingual Plane only.
   */
  function CharToByte(c: char): (b: Byte)
    ensures c as int < 0x80 ==> b == c as int
  {
    (c as int) % 0x100
  }

  /**
    `(char) data[k]` in Java. The array element is a signed byte, so octets
    0x80..0xFF are sign-extended to the characters U+FF80..U+FFFF.
   */
  function ByteToChar(b: Byte): (c: char)
    ensures CharToByte(c) == b
    ensures c as int < 0x80 <==> b < 0x80
  {
    if b < 0x80 then b as char else (0xFF00 + b) as char
  }

  /** The test ByteToChar makes is whether the sign bit `b & 0x80` is clear. */
  lemma {:induction false} SignBit(b: Byte)
    ensures b < 0x80 <==> (b as bv8) & 0x80 == 0
  {
  }

  /** The characters a label's octets are appended as. */
  function Chars(bytes: seq<Byte>): (s: string)
    ensures |s| == |bytes|
  {
    seq(|bytes|, k requires 0 <= k < |bytes| => ByteToChar(bytes[k]))
  }

  /** The octets a label's characters are written as. */
  function Bytes(s: string): (bytes: seq<Byte>)
    ensures |bytes| == |s|
  {
    seq(|s|, k requires 0 <= k < |s| => CharToByte(s[k]))
  }

  lemma {:induction false} AsciiRoundTrip(s: string)
    requires forall k :: 0 <= k < |s| ==> s[k] as int < 0x80
    ensures Chars(Bytes(s)) == s
  {
  }

  /* ---------------------------------------------------------------------- */
  /* Dotted names and labels                                                */
  /* ---------------------------------------------------------------------- */

  /** Every dot-separated piece of `s`, empty pieces included: "a..b" gives ["a", "", "b"]. */
  function Split(s: string): (pieces: seq<string>)
    ensures |pieces| >= 1
    ensures forall l :: l in pieces ==> '.' !in l
    decreases |s|
  {
    if |s| == 0 then [""]
    else
      var rest := Split(s[1..]);
      if s[0] == '.' then [""] + rest
      else [[s[0]] + rest[0]] + rest[1..]
  }

  /** The pieces written back with a dot between neighbours. */
  function Join(pieces: seq<string>): (s: string)
    requires |pieces| >= 1
  {
    if |pieces| == 1 then pieces[0] else pieces[0] + "." + Join(pieces[1..])
  }

  lemma {:induction false} JoinSplit(s: string)
    ensures Join(Split(s)) == s
    decreases |s|
  {
    if |s| > 0 {
      var rest := Split(s[1..]);
      JoinSplit(s[1..]);
      if s[0] == '.' {
        assert Split(s)[1..] == rest;
      } else if |rest| > 1 {
        assert Split(s)[1..] == rest[1..];
        assert Join(rest) == rest[0] + "." + Join(rest[1..]);
      }
    }
  }

  /** Splitting `l + t` where `l` has no dot glues `l` onto the first piece of `t`. */
  lemma {:induction false} SplitDotFree(l: string, t: string)
    requires '.' !in l
    ensures Split(l + t) == [l + Split(t)[0]] + Split(t)[1..]
    decreases |l|
  {
    if |l| > 0 {
      assert (l + t)[1..] == l[1..] + t;
      assert l[0] in l;
      SplitDotFree(l[1..], t);
      assert [l[0]] + (l[1..] + Split(t)[0]) == l + Split(t)[0];
    } else {
      assert l + t == t;
      assert l + Split(t)[0] == Split(t)[0];
      assert Split(t) == [Split(t)[0]] + Split(t)[1..];
    }
  }

  lemma {:induction false} SplitJoin(pieces: seq<string>)
    requires |pieces| >= 1
    requires forall l :: l in pieces ==> '.' !in l
    ensures Split(Join(pieces)) == pieces
    decreases |pieces|
  {
    if |pieces| == 1 {
      SplitDotFree(pieces[0], "");
      assert pieces[0] + "" == pieces[0];
    } else {
      var rest := pieces[1..];
      var tail := "." + Join(rest);
      assert Split(tail) == [""] + rest by {
        assert forall l :: l in rest ==> l in pieces;
        SplitJoin(rest);
        assert tail[1..] == Join(rest);
      }
      assert Split(pieces[0] + tail) == [pieces[0]] + rest by {
        assert pieces[0] in pieces;
        SplitDotFree(pieces[0], tail);
        assert pieces[0] + "" == pieces[0];
      }
      assert Join(pieces) == pieces[0] + tail;
      assert pieces == [pieces[0]] + rest;
    }
  }

  /** `pieces` with every trailing empty piece removed. */
  function DropTrailingEmpty(pieces: seq<string>): (r: seq<string>)
    ensures r <= pieces
    ensures |r| > 0 ==> r[|r| - 1] != ""
    ensures forall k :: |r| <= k < |pieces| ==> pieces[k] == ""
  {
    if |pieces| > 0 && pieces[|pieces| - 1] == "" then DropTrailingEmpty(pieces[..|pieces| - 1])
    else pieces
  }

  /**
    Java's `s.split("\\.")`: a string without a dot comes back whole (so ""
    gives [""]), otherwise the pieces with trailing empty ones dropped.
   */
  function JavaSplit(s: string): (pieces: seq<string>)
    ensures '.' !in s ==> pieces == [s]
    ensures '.' in s ==> && pieces <= Split(s)
                         && (|pieces| > 0 ==> pieces[|pieces| - 1] != "")
                         && forall k :: |pieces| <= k < |Split(s)| ==> Split(s)[k] == ""
  {
    if '.' !in s then [s] else DropTrailingEmpty(Split(s))
  }

  /** A label the query carries unchanged: 1 to 63 ASCII characters, none a dot. */
  predicate ValidLabel(l: string)
  {
    && 1 <= |l| <= 63
    && forall k :: 0 <= k < |l| ==> l[k] != '.' && l[k] as int < 0x80
  }

  /** A dotted name whose every piece is a valid label (no empty label, no leading, trailing or doubled dot). */
  predicate ValidDomain(s: string)
  {
    forall l :: l in Split(s) ==> ValidLabel(l)
  }

  lemma {:induction false} SplitOfDotFree(s: string)
    requires '.' !in s
    ensures Split(s) == [s]
  {
    SplitDotFree(s, "");
    assert s + "" == s;
  }

  /** For a valid name Java's split keeps exactly the pieces, and they join back to the name. */
  lemma {:induction false} ValidDomainPieces(s: string)
    requires ValidDomain(s)
    ensures JavaSplit(s) == Split(s)
    ensures Join(JavaSplit(s)) == s
  {
    JoinSplit(s);
    if '.' in s {
      var pieces := Split(s);
      assert pieces[|pieces| - 1] in pieces;
    } else {
      SplitOfDotFree(s);
    }
  }

  /** Valid labels joined with dots make a valid name. */
  lemma {:induction false} JoinValid(pieces: seq<string>)
    requires |pieces| >= 1
    requires forall l :: l in pieces ==> ValidLabel(l)
    ensures ValidDomain(Join(pieces))
  {
    SplitJoin(pieces);
  }

  /** The octets the labels occupy: one length octet plus the characters, per label. */
  function LabelsLength(pieces: seq<string>): nat
  {
    if |pieces| == 0 then 0 else |pieces[0]| + 1 + LabelsLength(pieces[1..])
  }

  /**
    The name length the client computes: the sum over the pieces of Java's
    split of (piece length + 1). The terminating zero octet is not counted.
   */
  function DomainLength(domain: string): nat
  {
    LabelsLength(JavaSplit(domain))
  }

  /** One label on the wire: the length octet, `(byte) length`, then the characters. */
  function EncodeLabel(l: string): (bytes: seq<Byte>)
    ensures |bytes| == |l| + 1
  {
    [|l| % 0x100] + Bytes(l)
  }

  function EncodeLabels(pieces: seq<string>): (bytes: seq<Byte>)
    ensures |bytes| == LabelsLength(pieces)
  {
    if |pieces| == 0 then [] else EncodeLabel(pieces[0]) + EncodeLabels(pieces[1..])
  }

  /** A name as the query carries it: its labels, then the zero-length root label. */
  function EncodeName(domain: string): (bytes: seq<Byte>)
    ensures |bytes| == DomainLength(domain) + 1
    ensures bytes[|bytes| - 1] == 0
  {
    EncodeLabels(JavaSplit(domain)) + [0]
  }

  /* ---------------------------------------------------------------------- */
  /* Decoding                                                               */
  /* ---------------------------------------------------------------------- */

  datatype DecodeError =
    | Truncated     // a label or a pointer runs past the end of the message
    | PointerLoop   // the pointers never lead to the end of the name

  /** A decoded name and the offset at which the caller resumes parsing. */
  datatype Decoded = Decoded(name: string, next: nat)

  /** The length octet starts a compression pointer: its top two bits are set. */
  predicate IsPointer(len: Byte)
  {
    len >= 0xC0
  }

  /** IsPointer is the source's test `(len & 0xC0) == 0xC0`. */
  lemma {:induction false} IsPointerMask(len: Byte)
    ensures IsPointer(len) <==> (len as bv8) & 0xC0 == 0xC0
  {
  }

  /** The offset a pointer refers to: the low six bits of `len`, then `low`. */
  function PointerTarget(len: Byte, low: Byte): (target: nat)
    requires IsPointer(len)
    ensures target < 0x4000
  {
    (len - 0xC0) * 0x100 + low
  }

  /** PointerTarget is the source's `((len & 0x3F) << 8) | low`. */
  lemma {:induction false} PointerTargetMask(len: Byte, low: Byte)
    requires IsPointer(len)
    ensures PointerTarget(len, low) == (((len as bv8) & 0x3F) as int) * 0x100 + low
  {
  }

  /** A pointer to `target` is written as the 16-bit value 0xC000 + `target`. */
  lemma {:induction false} PointerEncoding(len: Byte, low: Byte)
    requires IsPointer(len)
    ensures EncodeU16(0xC000 + PointerTarget(len, low)) == [len, low]
  {
  }

  /** The name extended by one label: a dot first unless the name is still empty. */
  function Extend(name: string, piece: string): (r: string)
  {
    (if |name| > 0 then name + "." else name) + piece
  }

  /** The name extended by several labels in order. */
  function ExtendAll(name: string, labels: seq<string>): string
    decreases |labels|
  {
    if |labels| == 0 then name else ExtendAll(Extend(name, labels[0]), labels[1..])
  }

  /** Where the caller resumes: after the first pointer if one was followed, else `i`. */
  function Resume(jump: Option<nat>, i: nat): nat
  {
    match jump
    case None => i
    case Some(j) => j
  }

  /** The resume position is set by the first pointer and never moved afterwards. */
  function Latch(jump: Option<nat>, afterPointer: nat): (r: Option<nat>)
    ensures r.Some?
    ensures jump.Some? ==> r == jump
    ensures jump.None? ==> r == Some(afterPointer)
  {
    if jump.None? then Some(afterPointer) else jump
  }

  /**
    The decoding loop from position `i`. `jump` is the latched resume
    position (None while no pointer has been followed), `name` the text
    decoded so far, and `hops` how many more pointers may be followed.
    Running out of hops is reported as PointerLoop; see DivergenceIsReal
    for why this coincides with no budget at all being enough. In the
    source such a message is never finished: a cycle through pointers alone
    spins forever, and a cycle that passes a label grows the name until
    the memory runs out.
    A position at or past the end of the message ends the loop quietly,
    as does a zero octet; a pointer target beyond the end therefore yields
    the name decoded so far.
   */
  function DecodeFrom(data: seq<Byte>, i: nat, jump: Option<nat>, name: string, hops: nat)
    : (r: Result<Decoded, DecodeError>)
    ensures r.Ok? && jump.Some? ==> r.value.next == jump.value
    ensures r.Ok? && jump.None? ==> r.value.next >= i
    decreases hops, |data| - i
  {
    if i >= |data| then Ok(Decoded(name, Resume(jump, i)))
    else if data[i] == 0 then Ok(Decoded(name, Resume(jump, i + 1)))
    else if IsPointer(data[i]) then
      if i + 1 >= |data| then Err(Truncated)
      else if hops == 0 then Err(PointerLoop)
      else DecodeFrom(data, PointerTarget(data[i], data[i + 1]), Latch(jump, i + 2), name, hops - 1)
    else if i + data[i] >= |data| then Err(Truncated)
    else DecodeFrom(data, i + data[i] + 1, jump, Extend(name, Chars(data[i + 1..i + data[i] + 1])), hops)
  }

  /**
    `decodeDomainName(data, offset)`, together with the resume cursor the
    source computes but does not return. At most |data| pointers are
    followed, which BudgetSuffices shows is never too few.
   */
  function DecodeDomainName(data: seq<Byte>, offset: nat): (r: Result<Decoded, DecodeError>)
    ensures r.Ok? ==> r.value.next >= offset
  {
    DecodeFrom(data, offset, None, "", |data|)
  }
}

=== FILE: query.dfy ===
/**
  Building the query message: a 12-octet header followed by one question
  (sections 4.1.1 and 4.1.2 of RFC 1035). The source draws the identifier
  at random; here it is a parameter.
 */
module Query {
  import opened Wire
  import opened Headers
  import opened Names
  import NameProperties

  /** The record types the client can ask for. */
  datatype QueryType = A | NS | MX

  /** QTYPE on the wire (section 3.2.2 of RFC 1035). */
  function QType(t: QueryType): U16
  {
    match t
    case A => 0x0001
    case NS => 0x0002
    case MX => 0x000F
  }

  /** QCLASS IN, the only class the client asks for. */
  const ClassIn: U16 := 0x0001

  /** The header every query carries: recursion desired, one question, every other field zero. */
  function QueryHeader(id: U16): Header
  {
    Header(id, Flags(false, 0, false, false, true, false, 0, 0), 1, 0, 0, 0)
  }

  /** `getRequestHeader`, with the identifier supplied by the caller. */
  function RequestHeader(id: U16): (bytes: seq<Byte>)
    ensures |bytes| == 12
    ensures DecodeHeader(bytes) == QueryHeader(id)
  {
    EncodeU16(id) + [0x01, 0x00] + [0x00, 0x01] + [0x00, 0x00] + [0x00, 0x00] + [0x00, 0x00]
  }

  /**
    `getQuestion`: the labels of the name, the zero octet, QTYPE and QCLASS.
    The source sizes its buffer as `getDomainLength() + 5`, and the writes
    fill it exactly.
   */
  function Question(domain: string, t: QueryType): (bytes: seq<Byte>)
    ensures |bytes| == DomainLength(domain) + 5
    ensures U16At(bytes, DomainLength(domain) + 1) == QType(t)
    ensures U16At(bytes, DomainLength(domain) + 3) == ClassIn
  {
    var trailer := EncodeU16(QType(t)) + EncodeU16(ClassIn);
    var bytes := EncodeName(domain) + trailer;
    var n := DomainLength(domain) + 1;
    assert bytes[n..n + 2] == EncodeU16(QType(t));
    assert bytes[n + 2..n + 4] == EncodeU16(ClassIn);
    bytes
  }

  /**
    `constructRequest`: the header followed by the question, in a buffer of
    `getDomainLength() + 12 + 5` octets.
   */
  function ConstructRequest(id: U16, domain: string, t: QueryType): (bytes: seq<Byte>)
    ensures |bytes| == 12 + DomainLength(domain) + 5
    ensures DecodeHeader(bytes) == QueryHeader(id)
    ensures U16At(bytes, 12 + DomainLength(domain) + 1) == QType(t)
    ensures U16At(bytes, 12 + DomainLength(domain) + 3) == ClassIn
  {
    var header := RequestHeader(id);
    var question := Question(domain, t);
    var n := DomainLength(domain) + 1;
    HeaderPrefix(header, question);
    U16AtAppend(header, question, n);
    U16AtAppend(header, question, n + 2);
    header + question
  }

  /**
    Decoding the request's name at offset 12 gives back a valid name, and
    the cursor stops just past its zero octet, where QTYPE follows.
   */
  lemma {:induction false} RequestRoundTrip(id: U16, domain: string, t: QueryType)
    requires ValidDomain(domain)
    ensures DecodeDomainName(ConstructRequest(id, domain, t), 12)
         == Ok(Decoded(domain, 12 + DomainLength(domain) + 1))
  {
    var trailer := RequestLayout(id, domain, t);
    NameProperties.NameRoundTrip(ConstructRequest(id, domain, t), RequestHeader(id), domain, trailer);
  }

  /** The request is the header, the encoded name and a four-octet trailer. */
  lemma {:induction false} RequestLayout(id: U16, domain: string, t: QueryType) returns (trailer: seq<Byte>)
    ensures ConstructRequest(id, domain, t) == RequestHeader(id) + EncodeName(domain) + trailer
  {
    trailer := EncodeU16(QType(t)) + EncodeU16(ClassIn);
    assert Question(domain, t) == EncodeName(domain) + trailer;
  }

  /** For a valid name the length octets take the place of the dots, plus one in front. */
  lemma {:induction false} LabelsLengthJoin(pieces: seq<string>)
    requires |pieces| >= 1
    ensures LabelsLength(pieces) == |Join(pieces)| + 1
    decreases |pieces|
  {
    if |pieces| > 1 {
      LabelsLengthJoin(pieces[1..]);
    }
  }

  /** The request for a valid name is 18 octets longer than the name's text. */
  lemma {:induction false} RequestLength(id: U16, domain: string, t: QueryType)
    requires ValidDomain(domain)
    ensures DomainLength(domain) == |domain| + 1
    ensures |ConstructRequest(id, domain, t)| == |domain| + 18
  {
    ValidDomainPieces(domain);
    LabelsLengthJoin(Split(domain));
  }

  /** "example.com" is the labels "example" and "com", both valid. */
  lemma {:induction false} ExampleComValid()
    ensures ValidDomain("example.com")
  {
    var pieces := ["example", "com"];
    assert ValidLabel("example");
    assert ValidLabel("com");
    assert Join(pieces) == "example.com";
    JoinValid(pieces);
  }

  /** "example.com" takes 12 octets of labels and a 29-octet request. */
  lemma {:induction false} ExampleComLength(id: U16, t: QueryType)
    ensures DomainLength("example.com") == 12
    ensures |ConstructRequest(id, "example.com", t)| == 29
  {
    ExampleComValid();
    RequestLength(id, "example.com", t);
  }
}

=== FILE: response.dfy ===
/**
  Reading the server's reply: the header, the RCODE check, and the walk
  over the answer section (sections 4.1.1 and 4.1.3 of RFC 1035). The
  source prints as it goes and reports failures by exceptions; here every
  path ends in an Outcome value, and a failure keeps the answers already
  read, which are the ones the source has already printed.
 */
module Response {
  import opened Wire
  import opened Headers
  import opened Names
  import NameProperties

  /* ---------------------------------------------------------------------- */
  /* Errors and RCODE                                                       */
  /* ---------------------------------------------------------------------- */

  /** Why reading the reply stopped. */
  datatype ParseError =
    | Underflow                     // a header or record field runs past the end of the reply
    | BadPosition                   // the answer offset lies past the end of the reply
    | RdataIndex                    // an MX record whose RDATA is shorter than the preference field
    | BadName(cause: DecodeError)   // a name inside RDATA could not be decoded

  /** The error RCODEs 1 to 5 of section 4.1.1 of RFC 1035. */
  datatype ServerError = FormatError | ServerFailure | NameError | NotImplemented | Refused

  /** The RCODE that reports `e`. */
  function CodeOf(e: ServerError): (rcode: Nibble)
    ensures 1 <= rcode <= 5
  {
    match e
    case FormatError => 1
    case ServerFailure => 2
    case NameError => 3
    case NotImplemented => 4
    case Refused => 5
  }

  /** The error an RCODE reports, if any; 0 and 6 to 15 report none. */
  function ServerErrorOf(rcode: Nibble): (e: Option<ServerError>)
    ensures e.Some? <==> 1 <= rcode <= 5
    ensures e.Some? ==> CodeOf(e.value) == rcode
  {
    if rcode == 1 then Some(FormatError)
    else if rcode == 2 then Some(ServerFailure)
    else if rcode == 3 then Some(NameError)
    else if rcode == 4 then Some(NotImplemented)
    else if rcode == 5 then Some(Refused)
    else None
  }

  lemma {:induction false} ServerErrorRoundTrip(e: ServerError)
    ensures ServerErrorOf(CodeOf(e)) == Some(e)
  {
  }

  /**
    `flags & 0xF`: the RCODE, the four low bits of the flags word. On the
    non-negative value `getShort() & 0xFFFF` the mask is the remainder by 16.
   */
  function Rcode(flags: U16): (rcode: Nibble)
    ensures rcode == DecodeFlags(flags).rcode
  {
    flags % 0x10
  }

  /**
    `(flags >> 10) & 1 == 1`: the AA bit. On a non-negative value the shift
    is division by 2^10 and the mask the remainder by 2.
   */
  function Authoritative(flags: U16): (aa: bool)
    ensures aa == DecodeFlags(flags).aa
  {
    (flags / 0x400) % 2 == 1
  }

  /* ---------------------------------------------------------------------- */
  /* Resource records                                                       */
  /* ---------------------------------------------------------------------- */

  /**
    A resource record as the client reads it. The owner name is taken as a
    single 16-bit field (in practice a compression pointer) and never
    decoded; RDLENGTH is the length of `rdata`.
   */
  datatype Record = Record(nameField: U16, rtype: U16, rclass: U16, ttl: I32, rdata: seq<Byte>)

  /** The RDLENGTH field can carry the RDATA length. */
  predicate WellSized(rec: Record)
  {
    |rec.rdata| < 0x1_0000
  }

  /** Every record of `recs` is WellSized. */
  predicate AllWellSized(recs: seq<Record>)
    decreases |recs|
  {
    |recs| == 0 || (WellSized(recs[0]) && AllWellSized(recs[1..]))
  }

  /** The octets a record occupies: ten octets of fixed fields, RDLENGTH, then the RDATA. */
  function RecordSize(rec: Record): nat
  {
    12 + |rec.rdata|
  }

  function EncodeRecord(rec: Record): (bytes: seq<Byte>)
    requires WellSized(rec)
    ensures |bytes| == RecordSize(rec)
  {
    EncodeU16(rec.nameField) + EncodeU16(rec.rtype) + EncodeU16(rec.rclass)
    + EncodeI32(rec.ttl) + EncodeU16(|rec.rdata|) + rec.rdata
  }

  /**
    The five `getShort`/`getInt` reads and `get(rdata)` of one record at
    `pos`. Any read past the end is a buffer underflow.
   */
  function ReadRecord(data: seq<Byte>, pos: nat): (r: Result<Record, ParseError>)
    ensures r.Err? ==> r.error == Underflow && (pos + 12 > |data| || pos + 12 + U16At(data, pos + 10) > |data|)
    ensures r.Ok? ==> WellSized(r.value) && pos + RecordSize(r.value) <= |data|
  {
    if pos + 12 > |data| then Err(Underflow)
    else
      var rdLength := U16At(data, pos + 10);
      if pos + 12 + rdLength > |data| then Err(Underflow)
      else
        Ok(Record(U16At(data, pos), U16At(data, pos + 2), U16At(data, pos + 4),
                  I32At(data, pos + 6), data[pos + 12..pos + 12 + rdLength]))
  }

  /** What is read is exactly the octets that encode it. */
  lemma {:induction false} ReadRecordEncoding(data: seq<Byte>, pos: nat)
    requires ReadRecord(data, pos).Ok?
    ensures EncodeRecord(ReadRecord(data, pos).value) == data[pos..pos + RecordSize(ReadRecord(data, pos).value)]
  {
    var rec := ReadRecord(data, pos).value;
    var n := RecordSize(rec);
    assert rec.rdata == data[pos + 12..pos + n];
    U16AtEncoding(data, pos);
    U16AtEncoding(data, pos + 2);
    U16AtEncoding(data, pos + 4);
    I32AtEncoding(data, pos + 6);
    U16AtEncoding(data, pos + 10);
    SplitAt(data, pos, pos + 2, pos + 4);
    SplitAt(data, pos, pos + 4, pos + 6);
    SplitAt(data, pos, pos + 6, pos + 10);
    SplitAt(data, pos, pos + 10, pos + 12);
    SplitAt(data, pos, pos + 12, pos + n);
  }

  /** Where each field of a record sits in its encoding. */
  lemma {:induction false} EncodedFields(rec: Record)
    requires WellSized(rec)
    ensures var bytes := EncodeRecord(rec);
      && bytes[0..2] == EncodeU16(rec.nameField)
      && bytes[2..4] == EncodeU16(rec.rtype)
      && bytes[4..6] == EncodeU16(rec.rclass)
      && bytes[6..10] == EncodeI32(rec.ttl)
      && bytes[10..12] == EncodeU16(|rec.rdata|)
      && bytes[12..] == rec.rdata
  {
  }

  /** The octets of an encoded record, wherever they sit, read back as that record. */
  lemma {:induction false} ReadEncodedRecord(data: seq<Byte>, pos: nat, rec: Record)
    requires WellSized(rec)
    requires pos + RecordSize(rec) <= |data|
    requires data[pos..pos + RecordSize(rec)] == EncodeRecord(rec)
    ensures ReadRecord(data, pos) == Ok(rec)
  {
    var n := RecordSize(rec);
    EncodedFields(rec);
    assert U16At(data, pos) == rec.nameField by {
      SubSlice(data, pos, n, 0, 2);
      U16AtEncoded(data, pos, rec.nameField);
    }
    assert U16At(data, pos + 2) == rec.rtype by {
      SubSlice(data, pos, n, 2, 4);
      U16AtEncoded(data, pos + 2, rec.rtype);
    }
    assert U16At(data, pos + 4) == rec.rclass by {
      SubSlice(data, pos, n, 4, 6);
      U16AtEncoded(data, pos + 4, rec.rclass);
    }
    assert I32At(data, pos + 6) == rec.ttl by {
      SubSlice(data, pos, n, 6, 10);
      I32AtEncoded(data, pos + 6, rec.ttl);
    }
    assert U16At(data, pos + 10) == |rec.rdata| by {
      SubSlice(data, pos, n, 10, 12);
      U16AtEncoded(data, pos + 10, |rec.rdata|);
    }
    assert data[pos + 12..pos + n] == rec.rdata by {
      SubSlice(data, pos, n, 12, n);
    }
  }

  /* ---------------------------------------------------------------------- */
  /* RDATA                                                                  */
  /* ---------------------------------------------------------------------- */

  const TypeA: U16 := 1
  const TypeNs: U16 := 2
  const TypeCname: U16 := 5
  const TypeMx: U16 := 15

  /** What the client makes of a record's RDATA. */
  datatype RData =
    | Address(octets: seq<Byte>)                        // type A with four octets, an IPv4 address
    | CanonicalName(alias: string)                      // type CNAME
    | NameServer(host: string)                          // type NS
    | MailExchange(preference: U16, exchange: string)   // type MX
    | Other(octets: seq<Byte>)                          // anything else, shown as raw octets

  /**
    The RDATA of `rec`, which starts at `start` in the whole reply `data`.
    Names are decoded from the whole reply, so their pointers may refer
    back to earlier parts of it. An A record of the wrong length falls
    through to the raw case, as in the source.
   */
  function Interpret(data: seq<Byte>, start: nat, rec: Record): (r: Result<RData, ParseError>)
    ensures r.Err? ==> rec.rtype in {TypeNs, TypeCname, TypeMx} && (r.error == RdataIndex || r.error.BadName?)
    ensures r == Err(RdataIndex) <==> rec.rtype == TypeMx && |rec.rdata| < 2
    ensures rec.rtype !in {TypeA, TypeNs, TypeCname, TypeMx} ==> r == Ok(Other(rec.rdata))
    ensures rec.rtype == TypeA ==> r == Ok(if |rec.rdata| == 4 then Address(rec.rdata) else Other(rec.rdata))
  {
    if rec.rtype == TypeA && |rec.rdata| == 4 then Ok(Address(rec.rdata))
    else if rec.rtype == TypeCname then
      match DecodeDomainName(data, start)
      case Ok(d) => Ok(CanonicalName(d.name))
      case Err(e) => Err(BadName(e))
    else if rec.rtype == TypeNs then
      match DecodeDomainName(data, start)
      case Ok(d) => Ok(NameServer(d.name))
      case Err(e) => Err(BadName(e))
    else if rec.rtype == TypeMx then
      if |rec.rdata| < 2 then Err(RdataIndex)
      else
        match DecodeDomainName(data, start + 2)
        case Ok(d) => Ok(MailExchange(U16At(rec.rdata, 0), d.name))
        case Err(e) => Err(BadName(e))
    else Ok(Other(rec.rdata))
  }

  /** A CNAME or NS record whose RDATA, at `start` in the reply, is an encoded valid name yields that name. */
  lemma {:induction false} NameRDataRoundTrip(data: seq<Byte>, start: nat, rec: Record, domain: string)
    requires rec.rtype == TypeCname || rec.rtype == TypeNs
    requires ValidDomain(domain)
    requires rec.rdata == EncodeName(domain)
    requires start + |rec.rdata| <= |data| && data[start..start + |rec.rdata|] == rec.rdata
    ensures Interpret(data, start, rec)
         == Ok(if rec.rtype == TypeCname then CanonicalName(domain) else NameServer(domain))
  {
    NameProperties.NameAt(data, start, domain);
  }

  /** An MX record whose RDATA, at `start` in the reply, is a preference and an encoded valid name yields both. */
  lemma {:induction false} MailExchangeRoundTrip(data: seq<Byte>, start: nat, rec: Record, preference: U16, domain: string)
    requires rec.rtype == TypeMx
    requires ValidDomain(domain)
    requires rec.rdata == EncodeU16(preference) + EncodeName(domain)
    requires start + |rec.rdata| <= |data| && data[start..start + |rec.rdata|] == rec.rdata
    ensures Interpret(data, start, rec) == Ok(MailExchange(preference, domain))
  {
    assert U16At(rec.rdata, 0) == preference by {
      assert rec.rdata[0..2] == EncodeU16(preference);
      U16AtEncoded(rec.rdata, 0, preference);
    }
    ConcatWindow(data, start, start + 2, start + |rec.rdata|, rec.rdata, EncodeU16(preference), EncodeName(domain));
    NameProperties.NameAt(data, start + 2, domain);
  }

  /**
    The usual compressed alias: a CNAME whose RDATA is just a pointer to
    where the name was written earlier in the reply (for instance in the
    question at offset 12) yields that name.
   */
  lemma {:induction false} CompressedAlias(data: seq<Byte>, target: nat, domain: string, start: nat, rec: Record)
    requires ValidDomain(domain)
    requires target < 0x4000
    requires target + |EncodeName(domain)| <= |data|
    requires data[target..target + |EncodeName(domain)|] == EncodeName(domain)
    requires rec.rtype == TypeCname
    requires rec.rdata == EncodeU16(0xC000 + target)
    requires start + 2 <= |data| && data[start..start + 2] == rec.rdata
    ensures Interpret(data, start, rec) == Ok(CanonicalName(domain))
  {
    NameProperties.PointerToName(data, target, domain, start);
  }

  /**
    The usual compressed mail exchange: a preference, then labels of its
    own, then a pointer to a name written earlier in the reply. It yields
    the preference and the labels, a dot, and the earlier name.
   */
  lemma {:induction false} CompressedExchange(data: seq<Byte>, start: nat, rec: Record, preference: U16,
                                               pieces: seq<string>, target: nat, domain: string)
    requires rec.rtype == TypeMx
    requires |pieces| >= 1 && forall l :: l in pieces ==> ValidLabel(l)
    requires ValidDomain(domain)
    requires target < 0x4000
    requires target + |EncodeName(domain)| <= |data|
    requires data[target..target + |EncodeName(domain)|] == EncodeName(domain)
    requires rec.rdata == EncodeU16(preference) + EncodeLabels(pieces) + EncodeU16(0xC000 + target)
    requires start + |rec.rdata| <= |data| && data[start..start + |rec.rdata|] == rec.rdata
    ensures Interpret(data, start, rec) == Ok(MailExchange(preference, Join(pieces) + "." + domain))
  {
    var labels := start + 2;
    var p := labels + LabelsLength(pieces);
    assert U16At(rec.rdata, 0) == preference by {
      assert rec.rdata[0..2] == EncodeU16(preference);
      U16AtEncoded(rec.rdata, 0, preference);
    }
    ConcatWindow(data, start, p, start + |rec.rdata|, rec.rdata,
                 EncodeU16(preference) + EncodeLabels(pieces), EncodeU16(0xC000 + target));
    ConcatWindow(data, start, labels, p, EncodeU16(preference) + EncodeLabels(pieces),
                 EncodeU16(preference), EncodeLabels(pieces));
    NameProperties.LabelsThenName(data, labels, pieces, p, target, domain);
  }

  /* ---------------------------------------------------------------------- */
  /* The answer section                                                     */
  /* ---------------------------------------------------------------------- */

  /** One answer: the record as read and what its RDATA means. */
  datatype Answer = Answer(record: Record, value: RData)

  /** The answer the record `rec` gives once its RDATA is interpreted as `r`, or the error interpreting it raised. */
  function Reading(rec: Record, r: Result<RData, ParseError>): Result<Answer, ParseError>
  {
    match r
    case Ok(v) => Ok(Answer(rec, v))
    case Err(e) => Err(e)
  }

  /** Reading and interpreting the record at `pos`; its RDATA starts 12 octets in. */
  function ReadAnswer(data: seq<Byte>, pos: nat): Result<Answer, ParseError>
  {
    match ReadRecord(data, pos)
    case Err(e) => Err(e)
    case Ok(rec) => Reading(rec, Interpret(data, pos + 12, rec))
  }

  /** The records of some answers. */
  function Records(answers: seq<Answer>): (recs: seq<Record>)
    ensures |recs| == |answers|
  {
    if |answers| == 0 then [] else [answers[0].record] + Records(answers[1..])
  }

  /** The octets the records occupy, laid end to end. */
  function TotalSize(recs: seq<Record>): nat
  {
    if |recs| == 0 then 0 else RecordSize(recs[0]) + TotalSize(recs[1..])
  }

  function EncodeRecords(recs: seq<Record>): (bytes: seq<Byte>)
    requires AllWellSized(recs)
    ensures |bytes| == TotalSize(recs)
  {
    if |recs| == 0 then [] else EncodeRecord(recs[0]) + EncodeRecords(recs[1..])
  }

  /** The answers read before the walk stopped, and the cursor it stopped at or the error that stopped it. */
  datatype Walk = Walk(answers: seq<Answer>, stop: Result<nat, ParseError>)

  /**
    The loop `for (int i = 0; i < anCount; i++)`, with `read` reading one
    answer at the cursor: `count` answers read back to back from `pos`,
    each moving the cursor past its record. A completed walk holds exactly
    `count` answers, a failed one fewer.
   */
  function WalkFrom(read: nat -> Result<Answer, ParseError>, pos: nat, count: nat): (w: Walk)
    ensures w.stop.Ok? ==> |w.answers| == count
    ensures w.stop.Err? ==> |w.answers| < count
    decreases count
  {
    if count == 0 then Walk([], Ok(pos))
    else
      match read(pos)
      case Err(e) => Walk([], Err(e))
      case Ok(a) =>
        var rest := WalkFrom(read, pos + RecordSize(a.record), count - 1);
        Walk([a] + rest.answers, rest.stop)
  }

  /** Reading answers from the reply `data`. */
  function AnswerReader(data: seq<Byte>): nat -> Result<Answer, ParseError>
  {
    (pos: nat) => ReadAnswer(data, pos)
  }

  /** The answer section of the reply `data`: `count` answers read back to back from `pos`. */
  function ReadAnswers(data: seq<Byte>, pos: nat, count: nat): Walk
  {
    WalkFrom(AnswerReader(data), pos, count)
  }

  /** A completed walk leaves the cursor just past the records it read. */
  lemma {:induction false} WalkCursor(read: nat -> Result<Answer, ParseError>, pos: nat, count: nat)
    ensures WalkFrom(read, pos, count).stop.Ok? ==>
              WalkFrom(read, pos, count).stop.value == pos + TotalSize(Records(WalkFrom(read, pos, count).answers))
    decreases count
  {
    if count > 0 && read(pos).Ok? {
      var a := read(pos).value;
      var next := pos + RecordSize(a.record);
      WalkCursor(read, next, count - 1);
      var rest := WalkFrom(read, next, count - 1);
      assert WalkFrom(read, pos, count) == Walk([a] + rest.answers, rest.stop);
      assert ([a] + rest.answers)[1..] == rest.answers;
    }
  }

  /** A record whose type the client shows without decoding, so reading its RDATA cannot fail. */
  predicate Inert(rec: Record)
  {
    rec.rtype !in {TypeNs, TypeCname, TypeMx}
  }

  /** `recs` read back to back from `pos`. */
  predicate LaidOut(data: seq<Byte>, pos: nat, recs: seq<Record>)
    decreases |recs|
  {
    |recs| == 0 ||
      (&& ReadRecord(data, pos) == Ok(recs[0])
       && LaidOut(data, pos + RecordSize(recs[0]), recs[1..]))
  }

  /** Where the `k`-th of the records `recs` starts when they are laid out from `pos`. */
  function Offset(pos: nat, recs: seq<Record>, k: nat): nat
    requires k <= |recs|
  {
    pos + TotalSize(recs[..k])
  }

  /** The first record starts at `pos`; a later one starts where it does among the records behind the first. */
  lemma {:induction false} OffsetCons(pos: nat, recs: seq<Record>, k: nat)
    requires 0 < |recs|
    requires k <= |recs|
    ensures k == 0 ==> Offset(pos, recs, k) == pos
    ensures k > 0 ==> Offset(pos, recs, k) == Offset(pos + RecordSize(recs[0]), recs[1..], k - 1)
  {
    if k == 0 {
      assert recs[..k] == [];
    } else {
      assert recs[..k][0] == recs[0];
      assert recs[..k][1..] == recs[1..][..k - 1];
    }
  }

  /** Laid out back to back, each record reads back where it starts. */
  lemma {:induction false} LaidOutAt(data: seq<Byte>, pos: nat, recs: seq<Record>, k: nat)
    requires LaidOut(data, pos, recs)
    requires k < |recs|
    ensures ReadRecord(data, Offset(pos, recs, k)) == Ok(recs[k])
    decreases k
  {
    OffsetCons(pos, recs, k);
    if k > 0 {
      LaidOutAt(data, pos + RecordSize(recs[0]), recs[1..], k - 1);
    }
  }

  /**
    What a walk over the records `recs` laid out from `pos` in the reply
    `data` yields: the records in order up to where it stopped, each with
    its RDATA interpreted from 12 octets past its start; on completion, a
    cursor past all of them; on an error, the error of interpreting the
    RDATA of the record it stopped at.
   */
  predicate WalkAgrees(data: seq<Byte>, w: Walk, pos: nat, recs: seq<Record>)
  {
    && |w.answers| <= |recs|
    && (forall k :: 0 <= k < |w.answers| ==>
          && w.answers[k].record == recs[k]
          && Interpret(data, Offset(pos, recs, k) + 12, recs[k]) == Ok(w.answers[k].value))
    && (w.stop.Ok? ==> |w.answers| == |recs| && w.stop.value == pos + TotalSize(recs))
    && (w.stop.Err? ==> && |w.answers| < |recs|
                        && Interpret(data, Offset(pos, recs, |w.answers|) + 12, recs[|w.answers|]) == Err(w.stop.error))
  }

  /**
    `WalkAgrees`, with the interpretations of the records' RDATA given as
    `rs`; it exists to keep `Interpret` out of the inductive proof.
   */
  predicate Agrees(w: Walk, pos: nat, recs: seq<Record>, rs: seq<Result<RData, ParseError>>)
  {
    && |rs| == |recs|
    && |w.answers| <= |recs|
    && (forall k :: 0 <= k < |w.answers| ==> w.answers[k].record == recs[k] && rs[k] == Ok(w.answers[k].value))
    && (w.stop.Ok? ==> |w.answers| == |recs| && w.stop.value == pos + TotalSize(recs))
    && (w.stop.Err? ==> |w.answers| < |recs| && rs[|w.answers|] == Err(w.stop.error))
  }

  /**
    A walk whose reader gives, at the start of each of the records `recs`
    laid out from `pos`, that record with the interpretation `rs` has for
    it, agrees with them.
   */
  lemma {:induction false} WalkFromAgrees(read: nat -> Result<Answer, ParseError>, pos: nat, recs: seq<Record>,
                                          rs: seq<Result<RData, ParseError>>)
    requires |rs| == |recs|
    requires forall k :: 0 <= k < |recs| ==> read(Offset(pos, recs, k)) == Reading(recs[k], rs[k])
    ensures Agrees(WalkFrom(read, pos, |recs|), pos, recs, rs)
    decreases |recs|
  {
    if |recs| > 0 {
      var next := pos + RecordSize(recs[0]);
      forall k | 0 <= k < |recs| - 1
        ensures read(Offset(next, recs[1..], k)) == Reading(recs[1..][k], rs[1..][k])
      {
        OffsetCons(pos, recs, k + 1);
      }
      WalkFromAgrees(read, next, recs[1..], rs[1..]);
      OffsetCons(pos, recs, 0);
      AgreesFirst(WalkFrom(read, pos, |recs|), WalkFrom(read, next, |recs| - 1), pos, recs, rs);
    }
  }

  /**
    One step in front of a walk that agrees with the records behind the
    first: stopping on the error of the first record's RDATA, or taking the
    first record with its value, agrees with all of them.
   */
  lemma {:induction false} AgreesFirst(w: Walk, rest: Walk, pos: nat, recs: seq<Record>, rs: seq<Result<RData, ParseError>>)
    requires 0 < |recs| == |rs|
    requires Agrees(rest, pos + RecordSize(recs[0]), recs[1..], rs[1..])
    requires rs[0].Err? ==> w == Walk([], Err(rs[0].error))
    requires rs[0].Ok? ==> w == Walk([Answer(recs[0], rs[0].value)] + rest.answers, rest.stop)
    ensures Agrees(w, pos, recs, rs)
  {
    if rs[0].Ok? {
      forall k | 0 <= k < |w.answers|
        ensures w.answers[k].record == recs[k] && rs[k] == Ok(w.answers[k].value)
      {
        if k > 0 {
          assert w.answers[k] == rest.answers[k - 1];
        }
      }
    }
  }

  /** Agreeing with the interpretations the records get where they are laid out is agreeing with the records. */
  lemma {:induction false} AgreesMeans(data: seq<Byte>, w: Walk, pos: nat, recs: seq<Record>, rs: seq<Result<RData, ParseError>>)
    requires Agrees(w, pos, recs, rs)
    requires forall k :: 0 <= k < |recs| ==> rs[k] == Interpret(data, Offset(pos, recs, k) + 12, recs[k])
    ensures WalkAgrees(data, w, pos, recs)
  {
  }

  /** The answer at a record that reads back: the record, with its RDATA interpreted. */
  lemma {:induction false} AnswerAt(data: seq<Byte>, pos: nat, rec: Record)
    requires ReadRecord(data, pos) == Ok(rec)
    ensures ReadAnswer(data, pos) == Reading(rec, Interpret(data, pos + 12, rec))
  {
  }

  /** Walking over records laid out back to back agrees with them. */
  lemma {:induction false} WalkLaidOut(data: seq<Byte>, pos: nat, recs: seq<Record>)
    requires LaidOut(data, pos, recs)
    ensures WalkAgrees(data, ReadAnswers(data, pos, |recs|), pos, recs)
  {
    var rs := seq(|recs|, k requires 0 <= k < |recs| => Interpret(data, Offset(pos, recs, k) + 12, recs[k]));
    forall k | 0 <= k < |recs|
      ensures rs[k] == Interpret(data, Offset(pos, recs, k) + 12, recs[k])
      ensures AnswerReader(data)(Offset(pos, recs, k)) == Reading(recs[k], rs[k])
    {
      LaidOutAt(data, pos, recs, k);
      AnswerAt(data, Offset(pos, recs, k), recs[k]);
    }
    WalkFromAgrees(AnswerReader(data), pos, recs, rs);
    AgreesMeans(data, WalkFrom(AnswerReader(data), pos, |recs|), pos, recs, rs);
  }

  /** A walk that agrees with inert records completes. */
  lemma {:induction false} InertWalkCompletes(data: seq<Byte>, w: Walk, pos: nat, recs: seq<Record>)
    requires WalkAgrees(data, w, pos, recs)
    requires forall k :: 0 <= k < |recs| ==> Inert(recs[k])
    ensures w.stop == Ok(pos + TotalSize(recs))
    ensures |w.answers| == |recs|
  {
  }

  /**
    Where a record is encoded, the answer read there is that record with
    its RDATA interpreted, and reading fails exactly when interpreting does.
   */
  lemma {:induction false} EncodedAnswer(data: seq<Byte>, pos: nat, rec: Record)
    requires WellSized(rec)
    requires pos + RecordSize(rec) <= |data|
    requires data[pos..pos + RecordSize(rec)] == EncodeRecord(rec)
    ensures ReadAnswer(data, pos).Ok? <==> Interpret(data, pos + 12, rec).Ok?
    ensures ReadAnswer(data, pos).Ok? ==> ReadAnswer(data, pos).value == Answer(rec, Interpret(data, pos + 12, rec).value)
    ensures ReadAnswer(data, pos).Err? ==> ReadAnswer(data, pos).error == Interpret(data, pos + 12, rec).error
  {
    ReadEncodedRecord(data, pos, rec);
    AnswerAt(data, pos, rec);
  }

  /** `recs` encoded one after the other from `pos`, each in its own window. */
  predicate RecordsAt(data: seq<Byte>, pos: nat, recs: seq<Record>)
    decreases |recs|
  {
    |recs| == 0 ||
      (&& WellSized(recs[0])
       && pos + RecordSize(recs[0]) <= |data|
       && data[pos..pos + RecordSize(recs[0])] == EncodeRecord(recs[0])
       && RecordsAt(data, pos + RecordSize(recs[0]), recs[1..]))
  }

  /** The encoding of several records, where it sits in a message, is the encodings one after the other. */
  lemma {:induction false} EncodedRecordsAt(data: seq<Byte>, pos: nat, recs: seq<Record>)
    requires AllWellSized(recs)
    requires pos + TotalSize(recs) <= |data|
    requires data[pos..pos + TotalSize(recs)] == EncodeRecords(recs)
    ensures RecordsAt(data, pos, recs)
    decreases |recs|
  {
    if |recs| > 0 {
      var next := pos + RecordSize(recs[0]);
      var x, y := EncodeRecord(recs[0]), EncodeRecords(recs[1..]);
      assert data[pos..next] == x && data[next..next + TotalSize(recs[1..])] == y by {
        assert EncodeRecords(recs) == x + y;
        ConcatWindow(data, pos, next, pos + TotalSize(recs), EncodeRecords(recs), x, y);
      }
      EncodedRecordsAt(data, next, recs[1..]);
    }
  }

  /** Records encoded one after the other read back one after the other. */
  lemma {:induction false} RecordsAtLaidOut(data: seq<Byte>, pos: nat, recs: seq<Record>)
    requires RecordsAt(data, pos, recs)
    ensures LaidOut(data, pos, recs)
    decreases |recs|
  {
    if |recs| > 0 {
      ReadEncodedRecord(data, pos, recs[0]);
      RecordsAtLaidOut(data, pos + RecordSize(recs[0]), recs[1..]);
    }
  }

  /** Walking over encoded records, wherever they sit, agrees with them. */
  lemma {:induction false} WalkRoundTrip(data: seq<Byte>, prefix: seq<Byte>, recs: seq<Record>, suffix: seq<Byte>)
    requires AllWellSized(recs)
    requires data == prefix + EncodeRecords(recs) + suffix
    ensures WalkAgrees(data, ReadAnswers(data, |prefix|, |recs|), |prefix|, recs)
  {
    MiddleSlice(prefix, EncodeRecords(recs), suffix);
    EncodedRecordsAt(data, |prefix|, recs);
    RecordsAtLaidOut(data, |prefix|, recs);
    WalkLaidOut(data, |prefix|, recs);
  }


  /* ---------------------------------------------------------------------- */
  /* The whole reply                                                        */
  /* ---------------------------------------------------------------------- */

  /** How reading a reply ends. */
  datatype Outcome =
    | Rejected(reason: ServerError)                                   // RCODE 1 to 5: a message, no answers
    | Answered(authoritative: bool, answers: seq<Answer>, additional: U16)
    | Failed(error: ParseError, partial: seq<Answer>)                 // an exception after `partial` was shown

  /**
    Where the client starts reading answers: past the header and a question
    of the size its own query had. The question in the reply is never read.
   */
  function AnswerOffset(domain: string): nat
  {
    12 + DomainLength(domain) + 5
  }

  /**
    `parseResponse` for the reply `data` to a query for `domain`. The six
    header fields are read first, then the cursor is moved to the answer
    offset (failing if that is past the end) before RCODE is looked at.
   */
  function ParseResponse(data: seq<Byte>, domain: string): (o: Outcome)
    ensures |data| < 12 ==> o == Failed(Underflow, [])
    ensures |data| >= 12 && AnswerOffset(domain) > |data| ==> o == Failed(BadPosition, [])
    ensures o.Rejected? <==> |data| >= 12 && AnswerOffset(domain) <= |data|
                             && 1 <= DecodeHeader(data).flags.rcode <= 5
    ensures o.Rejected? ==> CodeOf(o.reason) == DecodeHeader(data).flags.rcode
    ensures o.Answered? ==> && |data| >= 12
                            && |o.answers| == DecodeHeader(data).anCount
                            && o.authoritative == DecodeHeader(data).flags.aa
                            && o.additional == DecodeHeader(data).arCount
    ensures o.Failed? && |data| >= 12 ==> |o.partial| < DecodeHeader(data).anCount || o.error == BadPosition
  {
    if |data| < 12 then Failed(Underflow, [])
    else
      var flags := U16At(data, 2);
      var anCount := U16At(data, 6);
      var arCount := U16At(data, 10);
      var start := AnswerOffset(domain);
      if start > |data| then Failed(BadPosition, [])
      else
        match ServerErrorOf(Rcode(flags))
        case Some(e) => Rejected(e)
        case None =>
          var w := ReadAnswers(data, start, anCount);
          match w.stop
          case Ok(_) => Answered(Authoritative(flags), w.answers, arCount)
          case Err(e) => Failed(e, w.answers)
  }

  /** A reply laid out by hand: a header, a question, encoded answer records, and anything after them. */
  function EncodeReply(h: Header, question: seq<Byte>, recs: seq<Record>, extra: seq<Byte>): (bytes: seq<Byte>)
    requires AllWellSized(recs)
    ensures |bytes| == 12 + |question| + TotalSize(recs) + |extra|
  {
    EncodeHeader(h) + question + EncodeRecords(recs) + extra
  }

  /**
    Once the header is read, the offset is in range and RCODE is not an
    error, the reply's outcome is the walk over ANCOUNT records from the
    answer offset.
   */
  lemma {:induction false} ParsedWalk(data: seq<Byte>, domain: string, h: Header)
    requires |data| >= 12
    requires DecodeHeader(data) == h
    requires AnswerOffset(domain) <= |data|
    requires !(1 <= h.flags.rcode <= 5)
    ensures var w := ReadAnswers(data, AnswerOffset(domain), h.anCount);
            ParseResponse(data, domain)
              == if w.stop.Ok? then Answered(h.flags.aa, w.answers, h.arCount) else Failed(w.stop.error, w.answers)
  {
  }

  /**
    When the walk from the answer offset agrees with `recs`, the reply's
    outcome carries what it read: all of them with the AA bit and ARCOUNT,
    or the ones before the record whose RDATA failed, with that error.
   */
  lemma {:induction false} ParsedAgrees(data: seq<Byte>, domain: string, h: Header, recs: seq<Record>)
    requires |data| >= 12
    requires DecodeHeader(data) == h
    requires AnswerOffset(domain) <= |data|
    requires !(1 <= h.flags.rcode <= 5)
    requires h.anCount == |recs|
    requires WalkAgrees(data, ReadAnswers(data, AnswerOffset(domain), |recs|), AnswerOffset(domain), recs)
    ensures var o := ParseResponse(data, domain);
            && (o.Answered? || o.Failed?)
            && (o.Answered? ==> && o.authoritative == h.flags.aa
                                && o.additional == h.arCount
                                && WalkAgrees(data, Walk(o.answers, Ok(AnswerOffset(domain) + TotalSize(recs))),
                                              AnswerOffset(domain), recs))
            && (o.Failed? ==> WalkAgrees(data, Walk(o.partial, Err(o.error)), AnswerOffset(domain), recs))
  {
    ParsedWalk(data, domain, h);
  }

  /**
    A reply built from a header with a non-error RCODE, a question of the
    size the client's own query had, and ANCOUNT encoded records yields
    those records in order, each with its RDATA interpreted where it sits
    in the reply, together with the AA bit and ARCOUNT of the header; or it
    fails at the first record whose RDATA does not interpret, with that
    error, keeping the answers before it. Whatever follows the answers is
    never looked at.
   */
  lemma {:induction false} ResponseWalk(h: Header, question: seq<Byte>, recs: seq<Record>, extra: seq<Byte>, domain: string)
    requires AllWellSized(recs)
    requires |question| == DomainLength(domain) + 5
    requires h.anCount == |recs|
    requires !(1 <= h.flags.rcode <= 5)
    ensures var data := EncodeReply(h, question, recs, extra);
            var o := ParseResponse(data, domain);
            && (o.Answered? || o.Failed?)
            && (o.Answered? ==> && o.authoritative == h.flags.aa
                                && o.additional == h.arCount
                                && WalkAgrees(data, Walk(o.answers, Ok(AnswerOffset(domain) + TotalSize(recs))),
                                              AnswerOffset(domain), recs))
            && (o.Failed? ==> WalkAgrees(data, Walk(o.partial, Err(o.error)), AnswerOffset(domain), recs))
  {
    var prefix := EncodeHeader(h) + question;
    var data := EncodeReply(h, question, recs, extra);
    assert data == prefix + EncodeRecords(recs) + extra;
    assert DecodeHeader(data) == h by {
      assert data == EncodeHeader(h) + (question + EncodeRecords(recs) + extra);
      HeaderRoundTrip(h, question + EncodeRecords(recs) + extra);
    }
    assert |prefix| == AnswerOffset(domain);
    WalkRoundTrip(data, prefix, recs, extra);
    ParsedAgrees(data, domain, h, recs);
  }

  /** What the client makes of the RDATA of an inert record: an address for A with four octets, else raw octets. */
  function InertValue(rec: Record): RData
  {
    if rec.rtype == TypeA && |rec.rdata| == 4 then Address(rec.rdata) else Other(rec.rdata)
  }

  /**
    When no record holds a name or an MX preference, the reply built as
    above reads back as exactly those records, each A record of four
    octets as its address and every other one as its raw RDATA, with the
    AA bit and ARCOUNT of the header.
   */
  lemma {:induction false} ResponseRoundTrip(h: Header, question: seq<Byte>, recs: seq<Record>, extra: seq<Byte>, domain: string)
    requires AllWellSized(recs)
    requires |question| == DomainLength(domain) + 5
    requires h.anCount == |recs|
    requires !(1 <= h.flags.rcode <= 5)
    requires forall k :: 0 <= k < |recs| ==> Inert(recs[k])
    ensures var o := ParseResponse(EncodeReply(h, question, recs, extra), domain);
            && o.Answered?
            && o.authoritative == h.flags.aa
            && o.additional == h.arCount
            && |o.answers| == |recs|
            && forall k :: 0 <= k < |recs| ==> o.answers[k] == Answer(recs[k], InertValue(recs[k]))
  {
    var data := EncodeReply(h, question, recs, extra);
    var o := ParseResponse(data, domain);
    ResponseWalk(h, question, recs, extra, domain);
    var w := if o.Answered? then Walk(o.answers, Ok(AnswerOffset(domain) + TotalSize(recs)))
             else Walk(o.partial, Err(o.error));
    InertWalkCompletes(data, w, AnswerOffset(domain), recs);
    forall k | 0 <= k < |recs|
      ensures o.answers[k] == Answer(recs[k], InertValue(recs[k]))
    {
      assert Inert(recs[k]);
      assert Interpret(data, Offset(AnswerOffset(domain), recs, k) + 12, recs[k]) == Ok(o.answers[k].value);
    }
  }
}

=== FILE: wire.dfy ===
/**
  Octets and big-endian integers of a DNS message (section 2.3.2 of RFC 1035:
  multi-octet fields are transmitted most significant octet first), and the
  small result wrappers the decoders return instead of throwing.
 */
module Wire {

  /** An octet as the client reads it, i.e. the unsigned value of `b & 0xFF`. */
  type Byte = b: int | 0 <= b < 0x100

  /** An unsigned 16-bit field, i.e. the value of `getShort() & 0xFFFF`. */
  type U16 = v: int | 0 <= v < 0x1_0000

  /** A signed 32-bit field, the value of `getInt()`. */
  type I32 = v: int | -0x8000_0000 <= v < 0x8000_0000

  datatype Option<+T> = None | Some(value: T)

  datatype Result<+T, +E> = Ok(value: T) | Err(error: E)

  /** The two octets that carry `v` on the wire. */
  function EncodeU16(v: U16): (bytes: seq<Byte>)
    ensures |bytes| == 2
  {
    [v / 0x100, v % 0x100]
  }

  /** The 16-bit field starting at `pos`; U16AtEncoding relates it to its octets. */
  function U16At(data: seq<Byte>, pos: nat): (v: U16)
    requires pos + 2 <= |data|
  {
    data[pos] as int * 0x100 + data[pos + 1]
  }

  /** Encoding the field read at `pos` gives back its two octets. */
  lemma {:induction false} U16AtEncoding(data: seq<Byte>, pos: nat)
    requires pos + 2 <= |data|
    ensures EncodeU16(U16At(data, pos)) == data[pos..pos + 2]
  {
  }

  /** An unsigned 32-bit field. */
  type U32 = v: int | 0 <= v < 0x1_0000_0000

  /** The four octets that carry `u`, high half first. */
  function EncodeU32(u: U32): (bytes: seq<Byte>)
    ensures |bytes| == 4
  {
    EncodeU16(u / 0x1_0000) + EncodeU16(u % 0x1_0000)
  }

  /** The unsigned 32-bit field starting at `pos`, high half first. */
  function U32At(data: seq<Byte>, pos: nat): (u: U32)
    requires pos + 4 <= |data|
  {
    U16At(data, pos) * 0x1_0000 + U16At(data, pos + 2)
  }

  /** Encoding the field read at `pos` gives back its four octets. */
  lemma {:induction false} U32AtEncoding(data: seq<Byte>, pos: nat)
    requires pos + 4 <= |data|
    ensures EncodeU32(U32At(data, pos)) == data[pos..pos + 4]
  {
    U16AtEncoding(data, pos);
    U16AtEncoding(data, pos + 2);
    assert data[pos..pos + 4] == data[pos..pos + 2] + data[pos + 2..pos + 4];
  }

  /** The four octets that carry `v` in two's complement. */
  function EncodeI32(v: I32): (bytes: seq<Byte>)
    ensures |bytes| == 4
  {
    EncodeU32(if v < 0 then v + 0x1_0000_0000 else v)
  }

  /** The signed 32-bit field starting at `pos`: the unsigned one read in two's complement. */
  function I32At(data: seq<Byte>, pos: nat): (v: I32)
    requires pos + 4 <= |data|
  {
    var u := U32At(data, pos);
    if u < 0x8000_0000 then u else u - 0x1_0000_0000
  }

  /** Encoding the field read at `pos` gives back its four octets. */
  lemma {:induction false} I32AtEncoding(data: seq<Byte>, pos: nat)
    requires pos + 4 <= |data|
    ensures EncodeI32(I32At(data, pos)) == data[pos..pos + 4]
  {
    U32AtEncoding(data, pos);
  }

  /** A field read behind a prefix is the field read from the rest. */
  lemma {:induction false} U16AtAppend(prefix: seq<Byte>, data: seq<Byte>, pos: nat)
    requires pos + 2 <= |data|
    ensures U16At(prefix + data, |prefix| + pos) == U16At(data, pos)
  {
    assert (prefix + data)[|prefix| + pos] == data[pos];
    assert (prefix + data)[|prefix| + pos + 1] == data[pos + 1];
  }

  /** A field read from the front of a message is unaffected by what follows. */
  lemma {:induction false} U16AtPrefix(data: seq<Byte>, rest: seq<Byte>, pos: nat)
    requires pos + 2 <= |data|
    ensures U16At(data + rest, pos) == U16At(data, pos)
  {
    assert (data + rest)[pos] == data[pos];
    assert (data + rest)[pos + 1] == data[pos + 1];
  }

  /** A slice of a window is the matching slice of the whole. */
  lemma {:induction false} SubSlice(data: seq<Byte>, pos: nat, n: nat, a: nat, b: nat)
    requires pos + n <= |data|
    requires a <= b <= n
    ensures data[pos..pos + n][a..b] == data[pos + a..pos + b]
  {
    var window := data[pos..pos + n];
    forall k | a <= k < b
      ensures window[k] == data[pos + k]
    {
    }
  }

  /** A slice cut in two at `b`. */
  lemma {:induction false} SplitAt(data: seq<Byte>, a: nat, b: nat, c: nat)
    requires a <= b <= c <= |data|
    ensures data[a..c] == data[a..b] + data[b..c]
  {
  }

  /** Where `x + y` sits in a message, from `lo` to `hi`, `x` ends at `mid` and `y` follows it. */
  lemma {:induction false} ConcatWindow(data: seq<Byte>, lo: nat, mid: nat, hi: nat, whole: seq<Byte>, x: seq<Byte>, y: seq<Byte>)
    requires mid == lo + |x| && hi == mid + |y|
    requires hi <= |data|
    requires data[lo..hi] == whole
    requires whole == x + y
    ensures data[lo..mid] == x
    ensures data[mid..hi] == y
  {
    var window := data[lo..hi];
    forall k | 0 <= k < |x|
      ensures data[lo + k] == x[k]
    {
      assert window[k] == data[lo + k];
    }
    forall k | 0 <= k < |y|
      ensures data[mid + k] == y[k]
    {
      assert window[|x| + k] == data[mid + k];
    }
  }

  /** The middle part of a concatenation, cut back out. */
  lemma {:induction false} MiddleSlice(prefix: seq<Byte>, middle: seq<Byte>, suffix: seq<Byte>)
    ensures (prefix + middle + suffix)[|prefix|..|prefix| + |middle|] == middle
  {
    var data := prefix + middle + suffix;
    forall k | 0 <= k < |middle|
      ensures data[|prefix| + k] == middle[k]
    {
    }
  }

  /** A field whose two octets encode `v` reads as `v`. */
  lemma {:induction false} U16AtEncoded(data: seq<Byte>, pos: nat, v: U16)
    requires pos + 2 <= |data|
    requires data[pos..pos + 2] == EncodeU16(v)
    ensures U16At(data, pos) == v
  {
    assert data[pos] == EncodeU16(v)[0];
    assert data[pos + 1] == EncodeU16(v)[1];
  }

  /** A field whose four octets encode `v` reads as `v`. */
  lemma {:induction false} I32AtEncoded(data: seq<Byte>, pos: nat, v: I32)
    requires pos + 4 <= |data|
    requires data[pos..pos + 4] == EncodeI32(v)
    ensures I32At(data, pos) == v
  {
    var u := if v < 0 then v + 0x1_0000_0000 else v;
    assert data[pos..pos + 2] == EncodeI32(v)[..2] == EncodeU16(u / 0x1_0000);
    assert data[pos + 2..pos + 4] == EncodeI32(v)[2..] == EncodeU16(u % 0x1_0000);
    U16AtEncoded(data, pos, u / 0x1_0000);
    U16AtEncoded(data, pos + 2, u % 0x1_0000);
  }

  lemma {:induction false} U16RoundTrip(v: U16)
    ensures U16At(EncodeU16(v), 0) == v
  {
  }

  lemma {:induction false} I32RoundTrip(v: I32)
    ensures I32At(EncodeI32(v), 0) == v
  {
  }
}
